=== FILE: README.md ===
# sip trust registry — a Dafny model

`sip` guards `pip install`, `cargo add` and `go get`. It keeps a trust registry with one collection of package records per ecosystem (python, rust, go). A package is trusted when it has a record in its ecosystem's collection. A trusted package installs straight away. Any other package installs only with `--yes` or after the user confirms at a prompt. Three commands edit the registry:

- `trust` adds one record, either written by hand or fetched from PyPI;
- `untrust` removes one record;
- `bulk-trust` adds one record for every name listed in a file.

Registry documents are checked against a JSON schema before any of their records is used. A local override document replaces the baseline built into the binary, ecosystem by ecosystem. A stand-alone Python helper fetches PyPI metadata for a list of names and prints the records.

This project models:

- the record and its documented field formats (`package.dfy`);
- the collection operations, that is first-match lookup, remove-first-match and insert-or-replace (`collection.dfy`);
- the registry store (`registry.dfy`): a class with one `seq` field per ecosystem, and the loaders that choose override or baseline and reject a document that fails validation;
- the PyPI and crates.io normalisers (`fetch.dfy`), with the network as a function from request URL to decoded answer;
- the command workflows (`runner.dfy`): the install gate, the package manager's argument vector (built by a loop), `trust`, `untrust` and `bulk-trust`, whose loop counts successes and failures;
- the helper script (`bulk_fetch_pypi.dfy`): its normaliser, its name filter and its counting loop;
- the trimming, lower-casing and line filtering these rely on (`text.dfy`), plus `Option` and `Result` (`wrappers.dfy`).

Trust is decided by presence alone. A record's score is stored, overwritten and shown, never compared with a threshold.

Outside collaborators are parameters of the model:

- the JSON parser, schema compiler and record decoder (`JsonLib`);
- the file system, as what it holds at each path;
- PyPI and crates.io;
- today's date;
- the outcome of writing the registry back;
- the answer read at the prompt;
- the outcome of running the package manager.

A Rust panic (an `expect` that fails, or `files[0]` on an empty list) is an outcome of its own, `Panicked` or `Panic`. It ends the process, so it is not treated as an error value.

Where the intended behaviour of the tool and what its code does differ, the model follows the code:

- **Source field.** A record without a source was meant to be allowed for legacy entries. `source` is a mandatory `String` in src/sip/package.rs:11, so it is mandatory here too.
- **Verdict.** The intended verdict compares the score with a threshold (trusted, below threshold, unknown). The code only checks whether a record is present (src/sip/runner.rs:120), and src/sip/verify.rs is a stub.
- **Install loading.** Read-only use was meant to honour overrides as well. `install` calls `Registry::new` (src/sip/runner.rs:50-53), which reads only the baseline documents. `HandleInstall` uses `LoadEmbedded` accordingly.
- **Failures during a fetch.** Every fetch failure was meant to be a fetch error, isolated per item in bulk trust. In the code, a transport or decoding error is an error, but a missing release or digest and an empty file list panic (src/sip/fetch.rs:35, 41, 43). A panic ends a bulk run before the registry is written back.
- **Source fallback.** The two PyPI normalisers order their source fallbacks differently:
  - `sip` takes `home_page` whenever it is present, even when it is empty. It then tries the `Homepage` project URL, and last the project page without a trailing slash.
  - The helper tries the `Homepage`, `Source`, `Repository` and `Source Code` URLs, then `home_page`, skipping empty values. It falls back to the project page with a trailing slash when nothing is left or the choice is `UNKNOWN`.

## Model

| member | source | states |
|---|---|---|
| Text.Trim | src/sip/runner.rs:317 | the trimmed line is no longer than the line and has no whitespace at either end |
| Text.TrimSlice | src/sip/runner.rs:317 | trimming removes only whitespace, only at the two ends, and keeps a contiguous slice |
| Text.TrimIdempotent | src/sip/runner.rs:139 | trimming twice is trimming once |
| Text.ToLowerMatches | src/sip/runner.rs:139 | lower-casing an answer gives a lower-case word exactly when the two agree ignoring case |
| NameList.ListedNames | src/sip/runner.rs:316-319 | the bulk name list has at most one entry per line, and every entry is trimmed, non-empty and does not start with `#` |
| NameList.ListedNamesMembership | src/sip/runner.rs:316-319 | a string is listed exactly when it is a name and some line trims to it |
| NameList.ListedNamesAppend | scripts/bulk_fetch_pypi.py:77-81 | the filter works line by line, in file order: the names of two consecutive chunks are concatenated |
| NameList.ListedNamesIdempotent | scripts/bulk_fetch_pypi.py:77-81 | filtering a name list again leaves it unchanged |
| Package.HttpsHasScheme | src/sip/package.rs:11 | every `https://` source, such as the manual `trust` source, has the documented URI shape |
| Package.ManualHasNoScheme | src/sip/runner.rs:359 | the bulk placeholder source `manual` is not a URI, so a URI source is not a store invariant |
| Collection.FirstIndex | src/sip/registry.rs:154 | `position` gives the first index holding the name, and nothing exactly when the name is absent |
| Collection.Find | src/sip/registry.rs:128 | exact-name lookup returns a record of that name with no earlier record of the name, and nothing exactly when the name is absent |
| Collection.RemoveFirst | src/sip/registry.rs:154-159 | an absent name leaves the collection unchanged; a present name shortens it by one |
| Collection.RemoveFirstAt | src/sip/registry.rs:154-156 | removal deletes exactly the first matching record and keeps the others in order |
| Collection.RemoveFirstNames | src/sip/registry.rs:151-178 | removal keeps every other name and adds none |
| Collection.RemoveFirstUnique | src/sip/registry.rs:151-178 | with unique names, removal keeps them unique and leaves the name absent |
| Collection.FindAfterRemoveOther | src/sip/registry.rs:151-178 | removing one name leaves the lookup of every other name unchanged |
| Collection.Insert | src/sip/registry.rs:139-149 | the new record is last; the length is unchanged when the name was present and grows by one otherwise |
| Collection.InsertNames | src/sip/registry.rs:139-149 | insert-or-replace adds exactly the new record's name |
| Collection.InsertUnique | src/sip/registry.rs:139-149 | unique names stay unique, and looking up the inserted name then finds exactly the inserted record |
| Collection.FindAfterInsertOther | src/sip/registry.rs:139-149 | insert-or-replace leaves the lookup of every other name unchanged |
| Collection.InsertAllUnique | src/sip/runner.rs:363-366 | inserting the records of a bulk run one by one keeps names unique |
| Collection.InsertAllNames | src/sip/runner.rs:363-366 | after a bulk run, the names are the old ones plus every inserted one |
| Collection.InsertAllFresh | src/sip/runner.rs:363-366 | when no inserted name was present and the inserted names are distinct, a bulk run appends its records in order to what was there |
| RegistryStore.Collections.With | src/sip/registry.rs:14-19 | replacing one ecosystem's collection leaves the other two as they were |
| RegistryStore.LoadEmbeddedSchema | src/sip/registry.rs:81-86 | the schema loads exactly when its text parses and compiles, and is the compiled schema; otherwise the error is the parse error or the compile error |
| RegistryStore.LoadDocument | src/sip/registry.rs:88-99 | a document yields records exactly when it parses, has no schema violation and decodes; a violation rejects it whole, with every message; a parse or decode failure is reported as that error |
| RegistryStore.LoadFromFileOrEmbedded | src/sip/registry.rs:101-123 | an existing override file is used and validated whenever present, its result (records or error) being that document's load; the baseline's load is the result only when the file is missing; an unreadable file is a read error |
| RegistryStore.LoadLanguageIndependent | src/sip/registry.rs:42-62 | each ecosystem's choice depends only on its own override path, and the three paths differ |
| RegistryStore.LoadLanguage | src/sip/registry.rs:46-62 | one ecosystem's collection is the override-or-baseline load at that ecosystem's override path: its override document, validated, whenever that file exists; its baseline only when the file is missing; an unreadable file is a read error |
| RegistryStore.LoadMutable | src/sip/registry.rs:42-74 | the writable load succeeds exactly when the schema and all three ecosystem loads succeed, and then holds exactly what each of them loaded; a failed load reports the error of the first failing step, in the order schema, python, rust, go |
| RegistryStore.LoadEmbedded | src/sip/registry.rs:22-39 | a read-only load succeeds exactly when the schema loads and every baseline document is accepted, and then holds the decoded baseline documents; a failed load reports the error of the first failing step, in the order schema, python, rust, go |
| RegistryStore.LoadMutableWithoutOverrides | src/sip/registry.rs:120-121 | with no override file on disk, the writable load equals the read-only one |
| RegistryStore.Registry.constructor | src/sip/registry.rs:33-38 | a new registry holds the three loaded collections |
| RegistryStore.Registry.LookupPackage | src/sip/registry.rs:125-137 | lookup returns the first record in the chosen collection with exactly that name, none exactly when there is no such record, and never reads the other collections |
| RegistryStore.Registry.RemovePackage | src/sip/registry.rs:151-178 | reports whether the name was present; only the chosen collection changes, by removal of the first match |
| RegistryStore.Registry.AddPackage | src/sip/registry.rs:139-149 | only the chosen collection changes, by insert-or-replace; unique names stay unique and a lookup of the name then returns the package |
| RegistryStore.Registry.ListPackages | src/sip/registry.rs:200-213 | one ecosystem's records in order, or python, then rust, then go records concatenated |
| Fetch.FirstSdist | src/sip/fetch.rs:38-40 | the index of the first `sdist` file, and nothing exactly when no file is an sdist |
| Fetch.ChooseFile | src/sip/fetch.rs:38-41 | the chosen file is the first sdist whenever one exists and the first file otherwise; nothing only for an empty list |
| Fetch.PyPiSource | src/sip/fetch.rs:45-53 | `home_page` wins even when empty; then the `Homepage` project URL; then the PyPI project page without a trailing slash |
| Fetch.FetchFromPyPi | src/sip/fetch.rs:27-64 | an error exactly when the request fails; a panic only when the version has no files or the chosen file no sha256 digest; otherwise the current version with `sha256:` and the chosen file's digest |
| Fetch.FetchFromCrates | src/sip/fetch.rs:88-110 | never panics; each request's failure is returned as the error; when both succeed, a record with the newest version, `sha256:` and the version's checksum, and the version's crates.io page |
| Fetch.FetchedRecordsUntrusted | src/sip/fetch.rs:55-63 | a fetched record has the requested name, score 0.0, no endorser, today's date and a well-formed hash; a crate's source is a URI |
| BulkFetchPyPi.FirstTruthy | scripts/bulk_fetch_pypi.py:38-43 | a chain of `or`s yields the first non-empty candidate, and nothing when all are empty |
| BulkFetchPyPi.ScriptSource | scripts/bulk_fetch_pypi.py:35-49 | the first non-empty of the Homepage, Source, Repository and Source Code URLs and home_page; otherwise, or for `UNKNOWN`, the project page with a trailing slash; never empty |
| BulkFetchPyPi.FetchPyPiMetadata | scripts/bulk_fetch_pypi.py:16-66 | the request's error; an error for a version without files or a chosen file without sha256; otherwise, and only otherwise, the record with the given score, the helper as endorser and today's date |
| BulkFetchPyPi.AgreesWithFetchFromPyPi | scripts/bulk_fetch_pypi.py:24-32 | on an answer both decoders accept, the helper yields a record exactly when `sip`'s PyPI normaliser does, with the same name, version, hash and date |
| BulkFetchPyPi.FetchedShape | scripts/bulk_fetch_pypi.py:92-105 | every name is counted once, as a record or a failure, and every record has the requested name, a `sha256:` hash, score 5.0, the helper as endorser and a usable source |
| BulkFetchPyPi.BulkFetch | scripts/bulk_fetch_pypi.py:68-108 | usage, missing-file and empty-list exits; any other read error escapes uncaught; a file that lists names always completes, with exactly the fetched records in input order, and the successes plus the errors are the number of names |
| Runner.ResolveLanguage | src/sip/runner.rs:196-202 | an explicit language wins; without one, the detected language is used; the no-language error exactly when both are missing |
| Runner.AcceptedAnswers | src/sip/runner.rs:139 | the prompt accepts exactly the answers whose trimmed text is `y` or `yes`, in any case |
| Runner.InstallGate | src/sip/runner.rs:120-146 | proceed exactly when the package is found, `--yes` is given, or the answer is accepted; the prompt is consulted, and its read failure reported, only otherwise |
| Runner.InstallPackage | src/sip/runner.rs:387-478 | runs the manager with its subcommand, the name or versioned spec, then the extra arguments in order; reports a spawn failure or an unsuccessful exit |
| Runner.HandleInstall | src/sip/runner.rs:94-150 | no language or a failed load means no install; otherwise the package manager runs exactly when the gate says proceed; a cancel is success |
| Runner.Endorse | src/sip/runner.rs:213-219 | endorsing replaces the score only when one is given and appends the endorser; every other field is kept |
| Runner.TrustEntry | src/sip/runner.rs:206-236 | with `--fetch` for python, the PyPI normaliser's failure passed on or its record endorsed by `user`; otherwise the manual record with version 1.0.0 and score 5.0 by default |
| Runner.TrustEntryShape | src/sip/runner.rs:206-236 | a trusted record has the package's name, `user` as its only endorser, today's date, a `sha256:` hash and the given score; a manual record defaults to 1.0.0 and 5.0 and has a URI source |
| Runner.HandleTrust | src/sip/runner.rs:189-248 | writes back the loaded registry with the record inserted-or-replaced in the chosen ecosystem; with unique names, the record is what a lookup then finds; nothing is written on a failed fetch or a panic |
| Runner.HandleUntrust | src/sip/runner.rs:250-277 | writes back only when a record was removed, which happens exactly when the name was present |
| Runner.BulkEntryShape | src/sip/runner.rs:340-360 | a bulk record has the name, `bulk-import` as its only endorser, today's date and the given score; its hash is `sha256:` exactly for python, and a rust or go placeholder has version 1.0.0 and no URI source |
| Runner.BulkEntry | src/sip/runner.rs:335-361 | for python, the PyPI normaliser's failure passed on or its record endorsed by `bulk-import`; for rust and go, the placeholder record |
| Runner.BulkOutcomes | src/sip/runner.rs:332-361 | one outcome per listed name, in list order, each the bulk entry for that name |
| Runner.BulkCounts | src/sip/runner.rs:363-373 | without a panic, every processed name is counted once, as a success or a failure, and the added names are among the listed names |
| Runner.BulkCollectionInserts | src/sip/runner.rs:332-374 | the loop's running collection is the old one with the successful records inserted in order |
| Runner.BulkInsert | src/sip/runner.rs:332-374 | the loop stops exactly when some name panics; otherwise only the chosen collection changes, by inserting every successful record in order, with the counts of records and failures |
| Runner.HandleBulkTrust | src/sip/runner.rs:310-385 | a read error or an empty list ends without writing; otherwise successes plus failures equal the number of names, and the written registry holds the old names plus every added name, each of them listed |

## Left out

- HTTP requests, JSON parsing and decoding, and schema compilation and validation belong to outside libraries. Each is a function parameter (`JsonLib`, `Http`), so error messages are whatever those functions return.
- Writing to disk (`save_to_disk`, src/sip/registry.rs:180-198) is a single outcome parameter. The model does not cover which of the three files was written before a failure, or a save followed by a reload.
- Splitting a file into lines, and reading it, are left out. Bulk trust takes the file's lines, or the read error.
- `detect_language` (src/sip/runner.rs:55-92) probes the file system. Its answer is a parameter of `install`, `trust` and `untrust` (`verify` also consults it). Bulk trust takes a required language and never consults it.
- Spawning pip, cargo or go, reading the prompt answer, and every message printed to the console are left out. The process outcome and the answer are parameters.
- `handle_verify` and `handle_list` (src/sip/runner.rs:152-187, 279-308) only print. Their data logic is `LookupPackage` and `ListPackages`.
- `load_from_directory` (src/sip/registry.rs:77-79) only calls `new`, which is `LoadEmbedded`.
- src/main.rs is not part of this model. It appends a fetched record without removing an earlier record of the same name (src/main.rs:49). This is one reason loaded collections may hold duplicate names, so uniqueness is a hypothesis of the lemmas, not an invariant of the store. src/cli.rs is not modelled beyond its three languages.
- The stubs src/sip/verify.rs, src/sip/prompt.rs and src/langs are not part of this model.
- Trust scores are `real` values that are only stored or replaced. Floating-point behaviour is not modelled.
- Text.Trim: whitespace is ASCII space, tab, line feed, vertical tab, form feed and carriage return only. Rust's `trim` also removes non-ASCII Unicode whitespace. Python's `strip` removes that too, and also the separators \x1c to \x1f, which Rust keeps. So the helper lists a line "\x1fflask" as `flask`, while the model keeps it whole.
- Text.ToLower: lower-casing is ASCII only. Rust's `to_lowercase` also lower-cases non-ASCII letters.
- The reading of the clock is the `today` parameter. The ISO date format (`Package.IsoDate`) is documented but no operation checks it.
- BulkFetchPyPi.AgreesWithFetchFromPyPi: both normalisers read the same decoded answer here. `sip`'s decoder (src/sip/fetch.rs:7-25) is stricter. It fails when `home_page` is neither null nor a string. It also fails when any file of any release lacks a string `url`, a string `packagetype` or a `digests` map of strings, or when a project URL is not a string. The helper reads less: `packagetype` of the current release's files up to the first sdist, or of all of them when there is none; then the chosen file's `sha256`; and `home_page` only when no project URL is truthy (scripts/bulk_fetch_pypi.py:31-46). A missing `packagetype`, `digests` or `sha256` among those makes it fail too. But it yields a record where `sip` reports an error when the malformed values are elsewhere: in other releases' files, in the current release's files after the first sdist, in `url` fields, in other digests, in project URL values, or in a `home_page` that is not a string. A `false` home page falls back to the PyPI page; a number becomes the record's source.
- Runner.BulkInsert: bulk trust fetches each name inside its loop, while the model takes every name's outcome before the loop (`BulkOutcomes`). A fetch depends only on the name, the network and the date, so the order cannot be observed.
- Runner.BulkInsert: after a panic, the state of the registry is not stated. The process ends there and nothing is written.
- Runner.HandleBulkTrust: for a panic, the contract states that the run ends in a panic with nothing written, but not which message it carries.
- Runner.HandleInstall: the text of the error message after an unsuccessful exit is stated by `InstallPackage`, not repeated here.

=== FILE: bulk_fetch_pypi.dfy ===
/**
 * The stand-alone PyPI bulk fetcher: reads a file of package names, fetches
 * each package's metadata from PyPI and emits the records that could be
 * fetched, counting successes and failures.
 */
module BulkFetchPyPi {
  import opened Wrappers
  import opened Text
  import opened NameList
  import opened Package
  import Fetch

  /** Python truthiness of an optional string: present and not empty. */
  predicate Truthy(o: Option<string>) {
    o.Some? && o.value != ""
  }

  /** `m.get(key)`. */
  function Get(m: map<string, string>, key: string): Option<string> {
    if key in m then Some(m[key]) else None
  }

  /** The first truthy candidate, as a chain of Python `or`s picks it. */
  function FirstTruthy(candidates: seq<Option<string>>): (r: Option<string>)
    ensures r.Some? ==> Truthy(r)
    ensures r.Some? ==> exists i :: 0 <= i < |candidates| && candidates[i] == r
                                    && forall j :: 0 <= j < i ==> !Truthy(candidates[j])
    ensures r.None? <==> forall j :: 0 <= j < |candidates| ==> !Truthy(candidates[j])
  {
    if candidates == [] then None
    else if Truthy(candidates[0]) then candidates[0]
    else
      var r := FirstTruthy(candidates[1..]);
      assert forall j :: 1 <= j < |candidates| ==> candidates[j] == candidates[1..][j - 1];
      r
  }

  /** Where a source URL may come from, in order of preference. */
  function SourceCandidates(info: Fetch.PyPiInfo): seq<Option<string>> {
    var urls := info.projectUrls.GetOr(map[]);
    [Get(urls, "Homepage"), Get(urls, "Source"), Get(urls, "Repository"), Get(urls, "Source Code"), info.homePage]
  }

  /**
   * The source of a record: the first non-empty of the project's Homepage,
   * Source, Repository and Source Code URLs and `home_page`; the project
   * page on PyPI, with a trailing slash, when there is none or it is
   * `UNKNOWN`. Never empty and never `UNKNOWN`.
   */
  function ScriptSource(info: Fetch.PyPiInfo, name: string): (r: string)
    ensures r != "" && r != "UNKNOWN"
    ensures var c := FirstTruthy(SourceCandidates(info));
            r == if c.None? || c.value == "UNKNOWN" then "https://pypi.org/project/" + name + "/" else c.value
  {
    match FirstTruthy(SourceCandidates(info))
    case Some(url) => if url == "UNKNOWN" then "https://pypi.org/project/" + name + "/" else url
    case None => "https://pypi.org/project/" + name + "/"
  }

  const DefaultTrustScore: real := 5.0
  const Endorser: string := "pypi-bulk-fetch"

  function NoReleaseFilesError(name: string, version: string): string {
    "no release files found for " + name + "==" + version
  }

  const MissingSha256Error: string := "'sha256'"

  /**
   * One package's record, or the message of the exception that stopped it:
   * the request's own error; an error when the current version has no release
   * files or the chosen file no sha256 digest; otherwise a record of the
   * current version with the chosen file's digest.
   */
  function FetchPyPiMetadata(name: string, trustScore: real, pypi: Fetch.Http<Fetch.PyPiResponse>, today: string)
    : (r: Result<PackageRecord, string>)
    ensures pypi(Fetch.PyPiUrl(name)).Failure? ==> r == Failure(pypi(Fetch.PyPiUrl(name)).error)
    ensures pypi(Fetch.PyPiUrl(name)).Success? ==>
      var resp := pypi(Fetch.PyPiUrl(name)).value;
      var version := resp.info.version;
      var files := if version in resp.releases then resp.releases[version] else [];
      && (files == [] ==> r == Failure(NoReleaseFilesError(name, version)))
      && (files != [] && "sha256" !in Fetch.ChooseFile(files).value.digests ==> r == Failure(MissingSha256Error))
      && (files != [] && "sha256" in Fetch.ChooseFile(files).value.digests ==> r.Success?)
      && (r.Success? ==>
            && files != []
            && "sha256" in Fetch.ChooseFile(files).value.digests
            && r.value == PackageRecord(name, version, HashPrefix + Fetch.ChooseFile(files).value.digests["sha256"],
                                        trustScore, [Endorser], today, ScriptSource(resp.info, name)))
  {
    match pypi(Fetch.PyPiUrl(name))
    case Failure(e) => Failure(e)
    case Success(resp) =>
      var version := resp.info.version;
      var files := if version in resp.releases then resp.releases[version] else [];
      match Fetch.ChooseFile(files)
      case None => Failure(NoReleaseFilesError(name, version))
      case Some(file) =>
        if "sha256" !in file.digests then Failure(MissingSha256Error)
        else
          Success(PackageRecord(
            name := name,
            version := version,
            hash := HashPrefix + file.digests["sha256"],
            trustScore := trustScore,
            endorsedBy := [Endorser],
            lastReviewed := today,
            source := ScriptSource(resp.info, name)))
  }

  /** The records fetched for `names` with the default score, in input order, failures skipped. */
  function Fetched(names: seq<string>, pypi: Fetch.Http<Fetch.PyPiResponse>, today: string): seq<PackageRecord> {
    if names == [] then []
    else
      var last := FetchPyPiMetadata(names[|names| - 1], DefaultTrustScore, pypi, today);
      Fetched(names[..|names| - 1], pypi, today) + (if last.Success? then [last.value] else [])
  }

  /** How many of `names` could not be fetched. */
  function Failures(names: seq<string>, pypi: Fetch.Http<Fetch.PyPiResponse>, today: string): nat {
    if names == [] then 0
    else
      var last := FetchPyPiMetadata(names[|names| - 1], DefaultTrustScore, pypi, today);
      Failures(names[..|names| - 1], pypi, today) + (if last.Success? then 0 else 1)
  }

  /**
   * Every name is accounted for once, as a record or as a failure, and every
   * record has the helper's shape: its name among the inputs, a `sha256:`
   * hash, the default score, the helper as sole endorser, today's date and a
   * usable source.
   */
  lemma {:induction false} FetchedShape(names: seq<string>, pypi: Fetch.Http<Fetch.PyPiResponse>, today: string)
    ensures |Fetched(names, pypi, today)| + Failures(names, pypi, today) == |names|
    ensures forall r :: r in Fetched(names, pypi, today) ==>
      && r.name in names
      && HashWellFormed(r.hash)
      && r.trustScore == DefaultTrustScore
      && r.endorsedBy == [Endorser]
      && r.lastReviewed == today
      && r.source != "" && r.source != "UNKNOWN"
  {
    if names != [] {
      var init := names[..|names| - 1];
      FetchedShape(init, pypi, today);
      assert forall n :: n in init ==> n in names;
      assert names[|names| - 1] in names;
    }
  }

  /**
   * The helper and `sip` normalise a PyPI answer alike: one yields a record
   * exactly when the other does, with the same name, version, hash and
   * review date. They differ only in score, endorsers and source.
   */
  lemma AgreesWithFetchFromPyPi(name: string, pypi: Fetch.Http<Fetch.PyPiResponse>, today: string)
    ensures FetchPyPiMetadata(name, DefaultTrustScore, pypi, today).Success? <==>
            Fetch.FetchFromPyPi(name, pypi, today).Fetched?
    ensures FetchPyPiMetadata(name, DefaultTrustScore, pypi, today).Success? ==>
      var a := FetchPyPiMetadata(name, DefaultTrustScore, pypi, today).value;
      var b := Fetch.FetchFromPyPi(name, pypi, today).record;
      a.name == b.name && a.version == b.version && a.hash == b.hash && a.lastReviewed == b.lastReviewed
  {
  }

  /**
   * What opening and reading the names file gives: no such file, another
   * error while opening or reading it (permissions, a directory, undecodable
   * text), or its lines.
   */
  datatype NamesFile = NotFound | ReadFailure(error: string) | Lines(lines: seq<string>)

  /**
   * How a run of the helper ends. Only a missing file is caught; any other
   * error while reading the file escapes as an uncaught exception.
   */
  datatype ScriptExit =
    | UsageError
    | FileNotFound(path: string)
    | Crashed(error: string)
    | NoPackages
    | Completed(results: seq<PackageRecord>, successCount: nat, errorCount: nat)

  /**
   * The helper's entry point: exactly one argument, the names file; exit
   * with an error when it is missing or lists no package; otherwise fetch
   * every listed name and emit the records that were fetched, in order.
   */
  method BulkFetch(argv: seq<string>, files: string -> NamesFile,
                   pypi: Fetch.Http<Fetch.PyPiResponse>, today: string) returns (exit: ScriptExit)
    ensures |argv| != 2 ==> exit == UsageError
    ensures |argv| == 2 && files(argv[1]).NotFound? ==> exit == FileNotFound(argv[1])
    ensures |argv| == 2 && files(argv[1]).ReadFailure? ==> exit == Crashed(files(argv[1]).error)
    ensures |argv| == 2 && files(argv[1]).Lines? && ListedNames(files(argv[1]).lines) == [] ==> exit == NoPackages
    ensures |argv| == 2 && files(argv[1]).Lines? && ListedNames(files(argv[1]).lines) != [] ==> exit.Completed?
    ensures exit.Completed? ==>
      var names := ListedNames(files(argv[1]).lines);
      && |argv| == 2 && files(argv[1]).Lines? && names != []
      && exit.results == Fetched(names, pypi, today)
      && exit.successCount == |exit.results|
      && exit.successCount + exit.errorCount == |names|
  {
    if |argv| != 2 {
      return UsageError;
    }
    var path := argv[1];
    match files(path)
    case NotFound =>
      return FileNotFound(path);
    case ReadFailure(e) =>
      return Crashed(e);
    case Lines(lines) =>
      var names := ListedNames(lines);
      if names == [] {
        return NoPackages;
      }
      var results: seq<PackageRecord> := [];
      var successCount, errorCount := 0, 0;
      for i := 0 to |names|
        invariant results == Fetched(names[..i], pypi, today)
        invariant successCount == |results|
        invariant errorCount == Failures(names[..i], pypi, today)
      {
        assert names[..i + 1][..i] == names[..i];
        match FetchPyPiMetadata(names[i], DefaultTrustScore, pypi, today)
        case Success(record) =>
          results := results + [record];
          successCount := successCount + 1;
        case Failure(_) =>
          errorCount := errorCount + 1;
      }
      assert names[..|names|] == names;
      FetchedShape(names, pypi, today);
      return Completed(results, successCount, errorCount);
  }
}

=== FILE: collection.dfy ===
/**
 * What the registry's `Vec<PackageRecord>` operations do to one ecosystem's
 * collection: first-match position and lookup, removal of the first match,
 * and insert-or-replace, with the properties the store relies on.
 */
module Collection {
  import opened Wrappers
  import opened Package

  /** The set of names in a collection. */
  function Names(s: seq<PackageRecord>): set<string> {
    set k | 0 <= k < |s| :: s[k].name
  }

  /** No two records of the collection share a name. */
  predicate NamesUnique(s: seq<PackageRecord>) {
    forall i, j :: 0 <= i < j < |s| ==> s[i].name != s[j].name
  }

  /** The position of the first record named `name`, as `iter().position` finds it. */
  function FirstIndex(s: seq<PackageRecord>, name: string): (r: Option<nat>)
    ensures r.Some? ==> r.value < |s| && s[r.value].name == name
    ensures r.Some? ==> forall j :: 0 <= j < r.value ==> s[j].name != name
    ensures r.None? <==> name !in Names(s)
  {
    if |s| == 0 then None
    else if s[0].name == name then Some(0)
    else
      match FirstIndex(s[1..], name)
      case Some(i) => Some(i + 1)
      case None => None
  }

  /** An index holding `name` with no earlier record of that name is the first index. */
  lemma FirstIndexIs(s: seq<PackageRecord>, name: string, i: nat)
    requires i < |s| && s[i].name == name
    requires forall j :: 0 <= j < i ==> s[j].name != name
    ensures FirstIndex(s, name) == Some(i)
  {
  }

  /**
   * Exact, case-sensitive lookup (`iter().find`): the first record named
   * `name`, and nothing exactly when no record has that name.
   */
  function Find(s: seq<PackageRecord>, name: string): (r: Option<PackageRecord>)
    ensures r.Some? ==> r.value.name == name
    ensures r.Some? ==> exists i :: 0 <= i < |s| && s[i] == r.value
                                    && forall j :: 0 <= j < i ==> s[j].name != name
    ensures r.None? <==> name !in Names(s)
  {
    match FirstIndex(s, name)
    case Some(i) => Some(s[i])
    case None => None
  }

  /**
   * Deletes the first record named `name` and keeps the order of the rest;
   * a collection without that name is returned unchanged.
   */
  function RemoveFirst(s: seq<PackageRecord>, name: string): (r: seq<PackageRecord>)
    ensures name !in Names(s) ==> r == s
    ensures name in Names(s) ==> |r| == |s| - 1
  {
    match FirstIndex(s, name)
    case Some(i) => s[..i] + s[i + 1..]
    case None => s
  }

  /** Removal deletes exactly the first record with the name and keeps the others in order. */
  lemma RemoveFirstAt(s: seq<PackageRecord>, name: string, i: nat)
    requires i < |s| && s[i].name == name
    requires forall j :: 0 <= j < i ==> s[j].name != name
    ensures RemoveFirst(s, name) == s[..i] + s[i + 1..]
  {
    FirstIndexIs(s, name, i);
  }

  lemma NamesSingleton(p: PackageRecord)
    ensures Names([p]) == {p.name}
  {
    assert [p][0] == p;
  }

  /** The names of a concatenation. */
  lemma NamesConcat(a: seq<PackageRecord>, b: seq<PackageRecord>)
    ensures Names(a + b) == Names(a) + Names(b)
  {
    var c := a + b;
    forall k | 0 <= k < |c| ensures c[k].name in Names(a) + Names(b) {
      if k < |a| { assert c[k] == a[k]; } else { assert c[k] == b[k - |a|]; }
    }
    forall k | 0 <= k < |a| ensures a[k].name in Names(c) {
      assert c[k] == a[k];
    }
    forall k | 0 <= k < |b| ensures b[k].name in Names(c) {
      assert c[|a| + k] == b[k];
    }
  }

  /**
   * Insert-or-replace: remove the first record with the new record's name,
   * then append the new record.
   */
  function Insert(s: seq<PackageRecord>, p: PackageRecord): (r: seq<PackageRecord>)
    ensures |r| > 0 && r[|r| - 1] == p
    ensures |r| == if p.name in Names(s) then |s| else |s| + 1
  {
    RemoveFirst(s, p.name) + [p]
  }

  /** Records inserted one after another, in order. */
  function InsertAll(s: seq<PackageRecord>, ps: seq<PackageRecord>): seq<PackageRecord> {
    if ps == [] then s else Insert(InsertAll(s, ps[..|ps| - 1]), ps[|ps| - 1])
  }

  /** Inserting one more record is one more `Insert` after the others. */
  lemma InsertAllSnoc(s: seq<PackageRecord>, ps: seq<PackageRecord>, p: PackageRecord)
    ensures InsertAll(s, ps + [p]) == Insert(InsertAll(s, ps), p)
  {
    assert (ps + [p])[..|ps|] == ps;
  }

  /** `r` is `s` with the record at `i` deleted and the rest in order. */
  predicate DeletedAt(s: seq<PackageRecord>, i: nat, r: seq<PackageRecord>) {
    i < |s| && |r| == |s| - 1 && forall k :: 0 <= k < |r| ==> r[k] == s[if k < i then k else k + 1]
  }

  lemma DeleteAt(s: seq<PackageRecord>, i: nat)
    requires i < |s|
    ensures DeletedAt(s, i, s[..i] + s[i + 1..])
  {
  }

  /** Deleting one record keeps every other record's name. */
  lemma DeletedNames(s: seq<PackageRecord>, i: nat, r: seq<PackageRecord>)
    requires DeletedAt(s, i, r)
    ensures Names(s) - {s[i].name} <= Names(r) <= Names(s)
  {
    forall x | x in Names(s) - {s[i].name}
      ensures x in Names(r)
    {
      var k :| 0 <= k < |s| && s[k].name == x;
      assert r[if k < i then k else k - 1] == s[k];
    }
    forall x | x in Names(r)
      ensures x in Names(s)
    {
      var k :| 0 <= k < |r| && r[k].name == x;
      assert r[k] == s[if k < i then k else k + 1];
    }
  }

  /** Removal keeps the other names and drops at most the removed one. */
  lemma RemoveFirstNames(s: seq<PackageRecord>, name: string)
    ensures Names(s) - {name} <= Names(RemoveFirst(s, name)) <= Names(s)
  {
    match FirstIndex(s, name)
    case None =>
    case Some(i) =>
      DeleteAt(s, i);
      DeletedNames(s, i, RemoveFirst(s, name));
  }

  /** In a collection with unique names, removal leaves the rest unique and the name absent. */
  lemma RemoveFirstUnique(s: seq<PackageRecord>, name: string)
    requires NamesUnique(s)
    ensures NamesUnique(RemoveFirst(s, name))
    ensures name !in Names(RemoveFirst(s, name))
  {
    match FirstIndex(s, name)
    case None =>
    case Some(i) =>
      var r := RemoveFirst(s, name);
      DeleteAt(s, i);
      assert forall k :: 0 <= k < |r| ==> r[k].name != name;
  }

  /** Deleting a record of another name leaves the first match of `other` where it was, shifted past the gap. */
  lemma DeletedFind(s: seq<PackageRecord>, i: nat, r: seq<PackageRecord>, other: string)
    requires DeletedAt(s, i, r) && s[i].name != other
    ensures Find(r, other) == Find(s, other)
  {
    match FirstIndex(s, other)
    case Some(k) =>
      if k < i {
        FirstIndexIs(r, other, k);
      } else {
        FirstIndexIs(r, other, k - 1);
      }
    case None =>
      assert forall k :: 0 <= k < |r| ==> r[k].name != other;
  }

  /** Removing one name leaves the lookup of every other name as it was. */
  lemma FindAfterRemoveOther(s: seq<PackageRecord>, name: string, other: string)
    requires other != name
    ensures Find(RemoveFirst(s, name), other) == Find(s, other)
  {
    match FirstIndex(s, name)
    case None =>
    case Some(i) =>
      DeleteAt(s, i);
      DeletedFind(s, i, RemoveFirst(s, name), other);
  }

  /** Insertion adds exactly the new record's name to the names present. */
  lemma InsertNames(s: seq<PackageRecord>, p: PackageRecord)
    ensures Names(Insert(s, p)) == Names(s) + {p.name}
  {
    RemoveFirstNames(s, p.name);
    NamesConcat(RemoveFirst(s, p.name), [p]);
    NamesSingleton(p);
  }

  /**
   * Insert-or-replace keeps names unique, and a lookup of the inserted name
   * afterwards finds exactly the inserted record.
   */
  lemma InsertUnique(s: seq<PackageRecord>, p: PackageRecord)
    requires NamesUnique(s)
    ensures NamesUnique(Insert(s, p))
    ensures Find(Insert(s, p), p.name) == Some(p)
  {
    var r := RemoveFirst(s, p.name);
    RemoveFirstUnique(s, p.name);
    var t := Insert(s, p);
    assert t == r + [p];
    assert forall k :: 0 <= k < |r| ==> t[k] == r[k] && t[k].name != p.name;
    FirstIndexIs(t, p.name, |r|);
  }

  /** Insert-or-replace leaves the lookup of every other name as it was. */
  lemma FindAfterInsertOther(s: seq<PackageRecord>, p: PackageRecord, other: string)
    requires other != p.name
    ensures Find(Insert(s, p), other) == Find(s, other)
  {
    var r := RemoveFirst(s, p.name);
    FindAfterRemoveOther(s, p.name, other);
    var t := Insert(s, p);
    assert t == r + [p];
    assert forall k :: 0 <= k < |r| ==> t[k] == r[k];
    match FirstIndex(r, other)
    case Some(k) => FirstIndexIs(t, other, k);
    case None =>
      assert other !in Names(r);
      assert forall k :: 0 <= k < |t| ==> t[k].name != other;
  }

  /** Inserting a sequence of records keeps names unique. */
  lemma {:induction false} InsertAllUnique(s: seq<PackageRecord>, ps: seq<PackageRecord>)
    requires NamesUnique(s)
    ensures NamesUnique(InsertAll(s, ps))
  {
    if ps != [] {
      InsertAllUnique(s, ps[..|ps| - 1]);
      InsertUnique(InsertAll(s, ps[..|ps| - 1]), ps[|ps| - 1]);
    }
  }

  /** After inserting a sequence of records, the names present are the old ones and every inserted one. */
  lemma {:induction false} InsertAllNames(s: seq<PackageRecord>, ps: seq<PackageRecord>)
    ensures Names(InsertAll(s, ps)) == Names(s) + Names(ps)
  {
    if ps != [] {
      var init := ps[..|ps| - 1];
      var last := ps[|ps| - 1];
      assert ps == init + [last];
      assert InsertAll(s, ps) == Insert(InsertAll(s, init), last);
      InsertAllNames(s, init);
      InsertNames(InsertAll(s, init), last);
      NamesConcat(init, [last]);
      NamesSingleton(last);
    }
  }

  /**
   * When no inserted name is already present and the inserted names are
   * distinct, inserting them appends them in order.
   */
  lemma {:induction false} InsertAllFresh(s: seq<PackageRecord>, ps: seq<PackageRecord>)
    requires NamesUnique(s + ps)
    ensures InsertAll(s, ps) == s + ps
  {
    if ps != [] {
      var init := ps[..|ps| - 1];
      var last := ps[|ps| - 1];
      assert s + ps == (s + init) + [last];
      assert NamesUnique(s + init) by {
        forall i, j | 0 <= i < j < |s + init|
          ensures (s + init)[i].name != (s + init)[j].name
        {
          assert (s + init)[i] == (s + ps)[i] && (s + init)[j] == (s + ps)[j];
        }
      }
      InsertAllFresh(s, init);
      assert last.name !in Names(s + init) by {
        forall k | 0 <= k < |s + init| ensures (s + init)[k].name != last.name {
          assert (s + init)[k] == (s + ps)[k];
          assert (s + ps)[|s + ps| - 1] == last;
        }
      }
    }
  }
}

=== FILE: fetch.dfy ===
/**
 * The metadata normalisers: a PyPI or crates.io response turned into a
 * package record with no trust assigned yet. The index is reached through
 * a function from request URL to decoded response.
 */
module Fetch {
  import opened Wrappers
  import opened Text
  import opened Package

  datatype PyPiInfo = PyPiInfo(
    version: string,
    homePage: Option<string>,
    projectUrls: Option<map<string, string>>)

  datatype PyPiReleaseFile = PyPiReleaseFile(
    packagetype: string,
    url: string,
    digests: map<string, string>)

  datatype PyPiResponse = PyPiResponse(
    info: PyPiInfo,
    releases: map<string, seq<PyPiReleaseFile>>)

  /** The decoded answer to an HTTP request, or the transport or decoding error. */
  type Http<T> = string -> Result<T, string>

  /**
   * The result of a normaliser: a record, an error returned to the caller,
   * or a panic that ends the whole process.
   */
  datatype Fetched =
    | Fetched(record: PackageRecord)
    | FetchError(error: string)
    | Panicked(message: string)

  const NoReleaseFiles: string := "no release files for version"
  const IndexOutOfBounds: string := "index out of bounds"
  const Sha256Missing: string := "sha256 missing"

  function PyPiUrl(name: string): string {
    "https://pypi.org/pypi/" + name + "/json"
  }

  /** The position of the first source distribution among the release files. */
  function FirstSdist(files: seq<PyPiReleaseFile>): (r: Option<nat>)
    ensures r.Some? ==> r.value < |files| && files[r.value].packagetype == "sdist"
    ensures r.Some? ==> forall j :: 0 <= j < r.value ==> files[j].packagetype != "sdist"
    ensures r.None? <==> forall j :: 0 <= j < |files| ==> files[j].packagetype != "sdist"
  {
    if |files| == 0 then None
    else if files[0].packagetype == "sdist" then Some(0)
    else
      match FirstSdist(files[1..])
      case Some(i) => Some(i + 1)
      case None => None
  }

  /**
   * The release file whose digest is recorded: the first source distribution,
   * otherwise the first file; nothing for an empty list.
   */
  function ChooseFile(files: seq<PyPiReleaseFile>): (r: Option<PyPiReleaseFile>)
    ensures r.None? <==> files == []
    ensures r.Some? ==> r.value in files
    ensures r.Some? && r.value.packagetype != "sdist" ==>
              r.value == files[0] && forall f :: f in files ==> f.packagetype != "sdist"
    ensures (exists f :: f in files && f.packagetype == "sdist") ==>
              r.Some? && r.value.packagetype == "sdist"
    ensures FirstSdist(files).Some? ==> r == Some(files[FirstSdist(files).value])
  {
    match FirstSdist(files)
    case Some(i) => Some(files[i])
    case None => if files == [] then None else Some(files[0])
  }

  /**
   * The source of a fetched PyPI record: `home_page` whenever it is given,
   * even empty; else the project's `Homepage` URL; else the project page
   * on PyPI, without a trailing slash.
   */
  function PyPiSource(info: PyPiInfo, name: string): (r: string)
    ensures info.homePage.Some? ==> r == info.homePage.value
    ensures info.homePage.None? && info.projectUrls.Some? && "Homepage" in info.projectUrls.value ==>
              r == info.projectUrls.value["Homepage"]
    ensures info.homePage.None? && !(info.projectUrls.Some? && "Homepage" in info.projectUrls.value) ==>
              r == "https://pypi.org/project/" + name
  {
    match info.homePage
    case Some(page) => page
    case None =>
      match info.projectUrls
      case Some(urls) => if "Homepage" in urls then urls["Homepage"] else "https://pypi.org/project/" + name
      case None => "https://pypi.org/project/" + name
  }

  /**
   * The record fetched from PyPI for `name`, stamped with `today`: an error
   * exactly when the request fails; a panic when the index lists no files for
   * its current version or the chosen file has no sha256 digest; otherwise
   * the current version with the digest of the chosen release file.
   */
  function FetchFromPyPi(name: string, pypi: Http<PyPiResponse>, today: string): (r: Fetched)
    ensures r.FetchError? <==> pypi(PyPiUrl(name)).Failure?
    ensures r.FetchError? ==> r.error == pypi(PyPiUrl(name)).error
    ensures r.Panicked? ==>
      var resp := pypi(PyPiUrl(name)).value;
      var version := resp.info.version;
      version !in resp.releases || resp.releases[version] == []
      || "sha256" !in ChooseFile(resp.releases[version]).value.digests
    ensures r.Fetched? ==>
      var resp := pypi(PyPiUrl(name)).value;
      var version := resp.info.version;
      && version in resp.releases
      && ChooseFile(resp.releases[version]).Some?
      && var file := ChooseFile(resp.releases[version]).value;
      && "sha256" in file.digests
      && r.record == PackageRecord(name, version, HashPrefix + file.digests["sha256"],
                                   0.0, [], today, PyPiSource(resp.info, name))
  {
    match pypi(PyPiUrl(name))
    case Failure(e) => FetchError(e)
    case Success(resp) =>
      var version := resp.info.version;
      if version !in resp.releases then Panicked(NoReleaseFiles)
      else
        match ChooseFile(resp.releases[version])
        case None => Panicked(IndexOutOfBounds)
        case Some(file) =>
          if "sha256" !in file.digests then Panicked(Sha256Missing)
          else
            Fetched(PackageRecord(
              name := name,
              version := version,
              hash := HashPrefix + file.digests["sha256"],
              trustScore := 0.0,
              endorsedBy := [],
              lastReviewed := today,
              source := PyPiSource(resp.info, name)))
  }

  /** The crate summary: its newest version. */
  datatype CratesResponse = CratesResponse(maxVersion: string)

  /** One published version: its checksum. */
  datatype VersionResponse = VersionResponse(checksum: string)

  function CrateUrl(name: string): string {
    "https://crates.io/api/v1/crates/" + name
  }

  function CrateVersionUrl(name: string, version: string): string {
    "https://crates.io/api/v1/crates/" + name + "/" + version
  }

  function CrateSource(name: string, version: string): string {
    "https://crates.io/crates/" + name + "/" + version
  }

  /**
   * The record fetched from crates.io for `name`: the newest version, the
   * checksum of that version, and the version's crates.io page.
   */
  function FetchFromCrates(name: string, crates: Http<CratesResponse>, versions: Http<VersionResponse>, today: string)
    : (r: Fetched)
    ensures !r.Panicked?
    ensures crates(CrateUrl(name)).Failure? ==> r == FetchError(crates(CrateUrl(name)).error)
    ensures crates(CrateUrl(name)).Success? ==>
      var version := crates(CrateUrl(name)).value.maxVersion;
      && (versions(CrateVersionUrl(name, version)).Failure? ==>
            r == FetchError(versions(CrateVersionUrl(name, version)).error))
      && (versions(CrateVersionUrl(name, version)).Success? ==> r.Fetched?)
    ensures r.Fetched? ==>
      var version := crates(CrateUrl(name)).value.maxVersion;
      && crates(CrateUrl(name)).Success?
      && versions(CrateVersionUrl(name, version)).Success?
      && r.record == PackageRecord(name, version,
                                   HashPrefix + versions(CrateVersionUrl(name, version)).value.checksum,
                                   0.0, [], today, CrateSource(name, version))
  {
    match crates(CrateUrl(name))
    case Failure(e) => FetchError(e)
    case Success(cr) =>
      var version := cr.maxVersion;
      match versions(CrateVersionUrl(name, version))
      case Failure(e) => FetchError(e)
      case Success(vr) =>
        Fetched(PackageRecord(
          name := name,
          version := version,
          hash := HashPrefix + vr.checksum,
          trustScore := 0.0,
          endorsedBy := [],
          lastReviewed := today,
          source := CrateSource(name, version)))
  }

  /**
   * A fetched record never carries trust: its score is 0.0, it has no
   * endorser, its hash is in `sha256:` form, its name is the one asked for
   * and its review date is `today`.
   */
  lemma FetchedRecordsUntrusted(name: string, pypi: Http<PyPiResponse>, crates: Http<CratesResponse>,
                                versions: Http<VersionResponse>, today: string)
    ensures FetchFromPyPi(name, pypi, today).Fetched? ==>
      var rec := FetchFromPyPi(name, pypi, today).record;
      rec.name == name && rec.trustScore == 0.0 && rec.endorsedBy == [] && rec.lastReviewed == today
      && HashWellFormed(rec.hash)
    ensures FetchFromCrates(name, crates, versions, today).Fetched? ==>
      var rec := FetchFromCrates(name, crates, versions, today).record;
      rec.name == name && rec.trustScore == 0.0 && rec.endorsedBy == [] && rec.lastReviewed == today
      && HashWellFormed(rec.hash) && HasUriScheme(rec.source)
  {
    var f := FetchFromCrates(name, crates, versions, today);
    if f.Fetched? {
      assert StartsWith(f.record.source, "https://");
      HttpsHasScheme(f.record.source);
    }
  }
}

=== FILE: package.dfy ===
/**
 * The canonical package record of the trust registry and the formats its
 * fields are documented to follow.
 */
module Package {
  import opened Text

  /** The three ecosystems, each with its own trust collection. */
  datatype Language = Python | Rust | Go

  /**
   * One trusted package. Every field is mandatory, `source` included.
   * `trustScore` is only ever stored or overwritten, never computed on.
   * Records are values: a copy is equal field for field to the original,
   * and the registry replaces records rather than changing them.
   */
  datatype PackageRecord = PackageRecord(
    name: string,
    version: string,
    hash: string,
    trustScore: real,
    endorsedBy: seq<string>,
    lastReviewed: string,
    source: string)

  const HashPrefix: string := "sha256:"

  /** The documented hash format: the algorithm tag `sha256:` and then the digest. */
  predicate HashWellFormed(hash: string) {
    StartsWith(hash, HashPrefix)
  }

  predicate IsDigit(c: char) {
    '0' <= c <= '9'
  }

  /**
   * An ISO calendar date, `YYYY-MM-DD`: documentation of the format of
   * `lastReviewed`; no operation of the tool checks it.
   */
  predicate IsoDate(s: string) {
    && |s| == 10
    && s[4] == '-' && s[7] == '-'
    && (forall k :: 0 <= k < 10 && k != 4 && k != 7 ==> IsDigit(s[k]))
  }

  predicate IsAlpha(c: char) {
    'a' <= c <= 'z' || 'A' <= c <= 'Z'
  }

  /** A URI scheme name: a letter, then letters, digits, `+`, `-` or `.`. */
  predicate IsSchemeName(t: string) {
    && |t| > 0
    && IsAlpha(t[0])
    && forall k :: 0 < k < |t| ==> IsAlpha(t[k]) || IsDigit(t[k]) || t[k] in "+-."
  }

  /**
   * The documented source format, as far as its shape goes: a URI begins
   * with a scheme name followed by a colon.
   */
  predicate HasUriScheme(s: string) {
    exists k :: 0 < k < |s| && s[k] == ':' && IsSchemeName(s[..k])
  }

  /** Every `https://` string has a URI scheme. */
  lemma HttpsHasScheme(s: string)
    requires StartsWith(s, "https://")
    ensures HasUriScheme(s)
  {
    assert s[..5] == "https";
    assert s[5] == ':';
  }

  /** `manual`, the source the bulk manual path writes, has no URI scheme. */
  lemma ManualHasNoScheme()
    ensures !HasUriScheme("manual")
  {
    var s := "manual";
    forall k | 0 < k < |s|
      ensures s[k] != ':'
    {
    }
  }
}

=== FILE: registry.dfy ===
/**
 * The registry store: three independent collections of package records,
 * one per ecosystem, loaded from a local override document when one exists
 * and from the document built into the binary otherwise, each document
 * checked against the registry schema before any of its records is used.
 */
module RegistryStore {
  import opened Wrappers
  import opened Package
  import opened Collection

  /** A parsed JSON document. */
  datatype Json =
    | JNull
    | JBool(b: bool)
    | JNumber(n: real)
    | JString(s: string)
    | JArray(items: seq<Json>)
    | JObject(fields: seq<(string, Json)>)

  /** A compiled schema: validation yields every violation it finds; none means the document conforms. */
  datatype Schema = Schema(violations: Json -> seq<string>)

  /** The JSON parser, the schema compiler and the record decoder the store calls into. */
  datatype JsonLib = JsonLib(
    parse: string -> Result<Json, string>,
    compile: Json -> Result<Schema, string>,
    decode: string -> Result<seq<PackageRecord>, string>)

  /** The schema and the three baseline documents built into the binary. */
  datatype Embedded = Embedded(schema: string, python: string, rust: string, go: string) {
    function Document(lang: Language): string {
      match lang
      case Python => python
      case Rust => rust
      case Go => go
    }
  }

  /** What the file system holds at a path. */
  datatype LocalFile = Missing | Unreadable(error: string) | Present(content: string)

  /** The file system, as the contents found at each path. */
  type FileSystem = string -> LocalFile

  /** Where each ecosystem's local override document lives. */
  function OverridePath(lang: Language): string {
    match lang
    case Python => "registry/data/python/trusted-packages.json"
    case Rust => "registry/data/rust/trusted-crates.json"
    case Go => "registry/data/go/trusted-modules.json"
  }

  /** Which kind of document a schema violation was found in. */
  datatype Origin = EmbeddedData | LocalOverride

  datatype LoadError =
    | ParseError(error: string)
    | SchemaCompileError(error: string)
    | SchemaViolation(origin: Origin, messages: seq<string>)
    | DecodeError(error: string)
    | ReadError(error: string)

  /** The three collections, one per ecosystem. */
  datatype Collections = Collections(
    python: seq<PackageRecord>,
    rust: seq<PackageRecord>,
    go: seq<PackageRecord>)
  {
    function Get(lang: Language): seq<PackageRecord> {
      match lang
      case Python => python
      case Rust => rust
      case Go => go
    }

    /** These collections with `lang`'s replaced by `s`. */
    function With(lang: Language, s: seq<PackageRecord>): (c: Collections)
      ensures c.Get(lang) == s
      ensures forall other :: other != lang ==> c.Get(other) == Get(other)
    {
      match lang
      case Python => this.(python := s)
      case Rust => this.(rust := s)
      case Go => this.(go := s)
    }

    /** A proof helper: replacing one collection twice keeps only the second replacement. */
    lemma WithTwice(lang: Language, s: seq<PackageRecord>, t: seq<PackageRecord>)
      ensures With(lang, s).With(lang, t) == With(lang, t)
    {
    }
  }

  /** The built-in schema, parsed and compiled. */
  function LoadEmbeddedSchema(lib: JsonLib, text: string): (r: Result<Schema, LoadError>)
    ensures r.Success? <==> lib.parse(text).Success? && lib.compile(lib.parse(text).value).Success?
    ensures r.Success? ==> r.value == lib.compile(lib.parse(text).value).value
    ensures lib.parse(text).Failure? ==> r == Failure(ParseError(lib.parse(text).error))
    ensures lib.parse(text).Success? && lib.compile(lib.parse(text).value).Failure? ==>
              r == Failure(SchemaCompileError(lib.compile(lib.parse(text).value).error))
  {
    match lib.parse(text)
    case Failure(e) => Failure(ParseError(e))
    case Success(json) =>
      match lib.compile(json)
      case Failure(e) => Failure(SchemaCompileError(e))
      case Success(schema) => Success(schema)
  }

  /** A document parses, conforms to the schema with no violation at all, and decodes to records. */
  predicate Accepted(lib: JsonLib, schema: Schema, text: string) {
    && lib.parse(text).Success?
    && schema.violations(lib.parse(text).value) == []
    && lib.decode(text).Success?
  }

  /**
   * One registry document: parsed, validated, then decoded. A document with
   * any violation is rejected whole, with every violation message; none of
   * its records is returned.
   */
  function LoadDocument(lib: JsonLib, schema: Schema, text: string, origin: Origin)
    : (r: Result<seq<PackageRecord>, LoadError>)
    ensures r.Success? <==> Accepted(lib, schema, text)
    ensures r.Success? ==> r.value == lib.decode(text).value
    ensures lib.parse(text).Success? && schema.violations(lib.parse(text).value) != [] ==>
              r == Failure(SchemaViolation(origin, schema.violations(lib.parse(text).value)))
    ensures lib.parse(text).Failure? ==> r == Failure(ParseError(lib.parse(text).error))
    ensures lib.parse(text).Success? && schema.violations(lib.parse(text).value) == [] && lib.decode(text).Failure? ==>
              r == Failure(DecodeError(lib.decode(text).error))
  {
    match lib.parse(text)
    case Failure(e) => Failure(ParseError(e))
    case Success(json) =>
      var messages := schema.violations(json);
      if messages != [] then Failure(SchemaViolation(origin, messages))
      else
        match lib.decode(text)
        case Failure(e) => Failure(DecodeError(e))
        case Success(records) => Success(records)
  }

  /**
   * One ecosystem's collection: the local override whenever a file is there,
   * the embedded baseline only when there is none.
   */
  function LoadFromFileOrEmbedded(lib: JsonLib, schema: Schema, file: LocalFile, embedded: string)
    : (r: Result<seq<PackageRecord>, LoadError>)
    ensures file.Present? ==> (r.Success? <==> Accepted(lib, schema, file.content))
    ensures file.Missing? ==> (r.Success? <==> Accepted(lib, schema, embedded))
    ensures file.Unreadable? ==> r == Failure(ReadError(file.error))
    ensures r.Success? ==> r.value == lib.decode(if file.Present? then file.content else embedded).value
    ensures file.Present? ==> r == LoadDocument(lib, schema, file.content, LocalOverride)
    ensures file.Missing? ==> r == LoadDocument(lib, schema, embedded, EmbeddedData)
  {
    match file
    case Present(content) => LoadDocument(lib, schema, content, LocalOverride)
    case Unreadable(e) => Failure(ReadError(e))
    case Missing => LoadDocument(lib, schema, embedded, EmbeddedData)
  }

  /** The collection for one ecosystem, its source chosen independently of the others. */
  function LoadLanguage(lib: JsonLib, schema: Schema, embedded: Embedded, fs: FileSystem, lang: Language)
    : (r: Result<seq<PackageRecord>, LoadError>)
    ensures fs(OverridePath(lang)).Present? ==> (r.Success? <==> Accepted(lib, schema, fs(OverridePath(lang)).content))
    ensures fs(OverridePath(lang)).Missing? ==> (r.Success? <==> Accepted(lib, schema, embedded.Document(lang)))
    ensures fs(OverridePath(lang)).Unreadable? ==> r == Failure(ReadError(fs(OverridePath(lang)).error))
    ensures r.Success? ==>
      r.value == lib.decode(if fs(OverridePath(lang)).Present? then fs(OverridePath(lang)).content
                            else embedded.Document(lang)).value
    ensures r == LoadFromFileOrEmbedded(lib, schema, fs(OverridePath(lang)), embedded.Document(lang))
  {
    LoadFromFileOrEmbedded(lib, schema, fs(OverridePath(lang)), embedded.Document(lang))
  }

  /**
   * Each ecosystem's choice between override and baseline is its own: two
   * file systems that agree on its override path give it the same result,
   * whatever they hold at the other two paths, which are different paths.
   */
  lemma LoadLanguageIndependent(lib: JsonLib, schema: Schema, embedded: Embedded, fs1: FileSystem, fs2: FileSystem,
                                lang: Language)
    requires fs1(OverridePath(lang)) == fs2(OverridePath(lang))
    ensures LoadLanguage(lib, schema, embedded, fs1, lang) == LoadLanguage(lib, schema, embedded, fs2, lang)
    ensures forall other :: other != lang ==> OverridePath(other) != OverridePath(lang)
  {
    forall other | other != lang
      ensures OverridePath(other) != OverridePath(lang)
    {
      assert OverridePath(other)[15] != OverridePath(lang)[15];
    }
  }

  /**
   * A writable registry: the schema, then python, rust and go, each from its
   * override or its baseline. Any failure fails the whole load.
   */
  function LoadMutable(lib: JsonLib, embedded: Embedded, fs: FileSystem): (r: Result<Collections, LoadError>)
    ensures r.Success? <==>
      && LoadEmbeddedSchema(lib, embedded.schema).Success?
      && forall lang :: LoadLanguage(lib, LoadEmbeddedSchema(lib, embedded.schema).value, embedded, fs, lang).Success?
    ensures r.Success? ==>
      forall lang :: r.value.Get(lang) ==
        LoadLanguage(lib, LoadEmbeddedSchema(lib, embedded.schema).value, embedded, fs, lang).value
    ensures r.Failure? ==>
      var schema := LoadEmbeddedSchema(lib, embedded.schema);
      r.error ==
        if schema.Failure? then schema.error
        else if LoadLanguage(lib, schema.value, embedded, fs, Python).Failure? then
          LoadLanguage(lib, schema.value, embedded, fs, Python).error
        else if LoadLanguage(lib, schema.value, embedded, fs, Rust).Failure? then
          LoadLanguage(lib, schema.value, embedded, fs, Rust).error
        else LoadLanguage(lib, schema.value, embedded, fs, Go).error
  {
    match LoadEmbeddedSchema(lib, embedded.schema)
    case Failure(e) => Failure(e)
    case Success(schema) =>
      match LoadLanguage(lib, schema, embedded, fs, Python)
      case Failure(e) => Failure(e)
      case Success(python) =>
        match LoadLanguage(lib, schema, embedded, fs, Rust)
        case Failure(e) => Failure(e)
        case Success(rust) =>
          match LoadLanguage(lib, schema, embedded, fs, Go)
          case Failure(e) => Failure(e)
          case Success(go) =>
            var c := Collections(python, rust, go);
            assert forall lang :: c.Get(lang) == LoadLanguage(lib, schema, embedded, fs, lang).value;
            Success(c)
  }

  /** A read-only registry: the three baseline documents, with no override consulted. */
  function LoadEmbedded(lib: JsonLib, embedded: Embedded): (r: Result<Collections, LoadError>)
    ensures r.Success? ==>
      && LoadEmbeddedSchema(lib, embedded.schema).Success?
      && forall lang :: Accepted(lib, LoadEmbeddedSchema(lib, embedded.schema).value, embedded.Document(lang))
                        && r.value.Get(lang) == lib.decode(embedded.Document(lang)).value
    ensures r.Success? <==>
      && LoadEmbeddedSchema(lib, embedded.schema).Success?
      && forall lang :: Accepted(lib, LoadEmbeddedSchema(lib, embedded.schema).value, embedded.Document(lang))
    ensures r.Failure? ==>
      var schema := LoadEmbeddedSchema(lib, embedded.schema);
      r.error ==
        if schema.Failure? then schema.error
        else if LoadDocument(lib, schema.value, embedded.python, EmbeddedData).Failure? then
          LoadDocument(lib, schema.value, embedded.python, EmbeddedData).error
        else if LoadDocument(lib, schema.value, embedded.rust, EmbeddedData).Failure? then
          LoadDocument(lib, schema.value, embedded.rust, EmbeddedData).error
        else LoadDocument(lib, schema.value, embedded.go, EmbeddedData).error
  {
    match LoadEmbeddedSchema(lib, embedded.schema)
    case Failure(e) => Failure(e)
    case Success(schema) =>
      match LoadDocument(lib, schema, embedded.python, EmbeddedData)
      case Failure(e) =>
        assert !Accepted(lib, schema, embedded.Document(Python));
        Failure(e)
      case Success(python) =>
        match LoadDocument(lib, schema, embedded.rust, EmbeddedData)
        case Failure(e) =>
          assert !Accepted(lib, schema, embedded.Document(Rust));
          Failure(e)
        case Success(rust) =>
          match LoadDocument(lib, schema, embedded.go, EmbeddedData)
          case Failure(e) =>
            assert !Accepted(lib, schema, embedded.Document(Go));
            Failure(e)
          case Success(go) => Success(Collections(python, rust, go))
  }

  /** With no override file on disk, the writable load is the read-only one. */
  lemma LoadMutableWithoutOverrides(lib: JsonLib, embedded: Embedded)
    ensures LoadMutable(lib, embedded, (path: string) => Missing) == LoadEmbedded(lib, embedded)
  {
  }

  /** The in-memory registry: one mutable collection per ecosystem. */
  class Registry {
    var pythonPackages: seq<PackageRecord>
    var rustCrates: seq<PackageRecord>
    var goModules: seq<PackageRecord>

    constructor (c: Collections)
      ensures Snapshot() == c
    {
      pythonPackages, rustCrates, goModules := c.python, c.rust, c.go;
    }

    /** The three collections as they stand. */
    function Snapshot(): Collections
      reads this
    {
      Collections(pythonPackages, rustCrates, goModules)
    }

    function Collection(lang: Language): seq<PackageRecord>
      reads this
    {
      Snapshot().Get(lang)
    }

    /**
     * The first record of `lang`'s collection named exactly `name`; none
     * exactly when that collection has no such record. The other two
     * collections play no part.
     */
    function LookupPackage(name: string, lang: Language): (r: Option<PackageRecord>)
      reads this
      ensures r.Some? ==> r.value.name == name
      ensures r.Some? ==> exists i :: 0 <= i < |Collection(lang)| && Collection(lang)[i] == r.value
                                      && forall j :: 0 <= j < i ==> Collection(lang)[j].name != name
      ensures r.None? <==> name !in Names(Collection(lang))
    {
      Find(Collection(lang), name)
    }

    method SetCollection(lang: Language, s: seq<PackageRecord>)
      modifies this
      ensures Snapshot() == old(Snapshot()).With(lang, s)
    {
      match lang
      case Python => pythonPackages := s;
      case Rust => rustCrates := s;
      case Go => goModules := s;
    }

    /**
     * Finds the first record named `name` in `lang`'s collection and deletes
     * it; reports whether there was one. The other collections are untouched.
     */
    method RemovePackage(name: string, lang: Language) returns (removed: bool)
      modifies this
      ensures removed <==> name in Names(old(Collection(lang)))
      ensures Collection(lang) == RemoveFirst(old(Collection(lang)), name)
      ensures forall other :: other != lang ==> Collection(other) == old(Collection(other))
      ensures Snapshot() == old(Snapshot()).With(lang, RemoveFirst(old(Collection(lang)), name))
    {
      var s := Collection(lang);
      var pos := 0;
      while pos < |s| && s[pos].name != name
        invariant 0 <= pos <= |s|
        invariant forall j :: 0 <= j < pos ==> s[j].name != name
      {
        pos := pos + 1;
      }
      if pos < |s| {
        RemoveFirstAt(s, name, pos);
        SetCollection(lang, s[..pos] + s[pos + 1..]);
        removed := true;
      } else {
        removed := false;
      }
    }

    /**
     * Insert-or-replace: removes the first record with the package's name,
     * then appends the package. Unique names stay unique, and the package is
     * then what a lookup of its name finds.
     */
    method AddPackage(package: PackageRecord, lang: Language)
      modifies this
      ensures Snapshot() == old(Snapshot()).With(lang, Insert(old(Collection(lang)), package))
      ensures NamesUnique(old(Collection(lang))) ==>
                NamesUnique(Collection(lang)) && LookupPackage(package.name, lang) == Some(package)
    {
      ghost var before := Collection(lang);
      var _ := RemovePackage(package.name, lang);
      SetCollection(lang, Collection(lang) + [package]);
      if NamesUnique(before) {
        InsertUnique(before, package);
      }
    }

    /**
     * One ecosystem's records in order, or, with no ecosystem given, the
     * python, rust and go records one after another.
     */
    function ListPackages(lang: Option<Language>): (r: seq<PackageRecord>)
      reads this
      ensures lang.Some? ==> r == Collection(lang.value)
      ensures lang.None? ==>
        && |r| == |pythonPackages| + |rustCrates| + |goModules|
        && (forall k :: 0 <= k < |pythonPackages| ==> r[k] == pythonPackages[k])
        && (forall k :: 0 <= k < |rustCrates| ==> r[|pythonPackages| + k] == rustCrates[k])
        && (forall k :: 0 <= k < |goModules| ==> r[|pythonPackages| + |rustCrates| + k] == goModules[k])
    {
      match lang
      case Some(l) => Collection(l)
      case None => pythonPackages + rustCrates + goModules
    }
  }
}

=== FILE: runner.dfy ===
/**
 * The command workflows: the install gate and the package manager's argument
 * vector, trust and untrust of one package, and bulk trust from a file of
 * names. Trust is decided by presence in the registry alone; the score is
 * stored and shown, never compared.
 */
module Runner {
  import opened Wrappers
  import opened Text
  import opened NameList
  import opened Package
  import opened Collection
  import opened RegistryStore
  import opened Fetch

  datatype SipError =
    | NoLanguage
    | Load(loadError: LoadError)
    | FetchFailed(fetchError: string)
    | ReadFailed(readError: string)
    | SaveFailed(saveError: string)
    | SpawnFailed(spawnError: string)
    | ToolFailed(message: string)

  /** How a command ends: normally, with an error, or with a panic of the process. */
  datatype Outcome = Ok | Err(error: SipError) | Panic(message: string)

  /**
   * What a command sees of the outside world: the JSON libraries, the
   * embedded documents, the file system, PyPI, the current date and whether
   * writing the registry back fails.
   */
  datatype Env = Env(
    lib: JsonLib,
    embedded: Embedded,
    fs: FileSystem,
    pypi: Http<PyPiResponse>,
    today: string,
    saveError: Option<string>)

  /** An explicit `--lang` wins; otherwise the detected ecosystem; otherwise an error. */
  function ResolveLanguage(lang: Option<Language>, detected: Option<Language>): (r: Result<Language, SipError>)
    ensures lang.Some? ==> r == Success(lang.value)
    ensures lang.None? && detected.Some? ==> r == Success(detected.value)
    ensures r.Failure? <==> lang.None? && detected.None?
    ensures r.Failure? ==> r.error == NoLanguage
  {
    match lang
    case Some(l) => Success(l)
    case None =>
      match detected
      case Some(l) => Success(l)
      case None => Failure(NoLanguage)
  }

  // ---------------------------------------------------------------- install

  /** The answer to "proceed anyway?" that counts as yes: `y` or `yes`, trimmed, in any case. */
  predicate AcceptsAnswer(answer: string) {
    ToLower(Trim(answer)) == "y" || ToLower(Trim(answer)) == "yes"
  }

  /** Accepted answers are exactly those whose trimmed text is `y` or `yes` ignoring case. */
  lemma AcceptedAnswers(answer: string)
    ensures AcceptsAnswer(answer) <==>
              EqualsIgnoringCase(Trim(answer), "y") || EqualsIgnoringCase(Trim(answer), "yes")
  {
    var t := Trim(answer);
    assert IsLowerCase("y") by {
      assert "y"[0] == 'y';
    }
    assert IsLowerCase("yes") by {
      assert "yes"[0] == 'y' && "yes"[1] == 'e' && "yes"[2] == 's';
    }
    ToLowerMatches(t, "y");
    ToLowerMatches(t, "yes");
  }

  datatype Gate = Proceed | Cancel | PromptFailed(error: string)

  /**
   * Whether to install: a registered package installs without a prompt, so
   * does any package with `--yes`; otherwise the answer read from the
   * terminal decides, and is consulted in that case only.
   */
  function InstallGate(found: bool, yes: bool, answer: Result<string, string>): (g: Gate)
    ensures g == Proceed <==> found || yes || (answer.Success? && AcceptsAnswer(answer.value))
    ensures g.PromptFailed? <==> !found && !yes && answer.Failure?
    ensures found || yes ==> g == Proceed
  {
    if found || yes then Proceed
    else
      match answer
      case Failure(e) => PromptFailed(e)
      case Success(a) => if AcceptsAnswer(a) then Proceed else Cancel
  }

  datatype Command = Command(program: string, args: seq<string>)

  /** A spawned process either fails to start or exits, successfully or not. */
  datatype ProcessStatus = SpawnError(error: string) | Exited(success: bool)

  function Manager(lang: Language): string {
    match lang
    case Python => "pip"
    case Rust => "cargo"
    case Go => "go"
  }

  function Subcommand(lang: Language): string {
    match lang
    case Python => "install"
    case Rust => "add"
    case Go => "get"
  }

  /** `name==version` for pip, `name@version` for cargo and go, the bare name without a version. */
  function PackageSpec(package: string, version: Option<string>, lang: Language): string {
    match version
    case None => package
    case Some(v) => package + (if lang == Python then "==" else "@") + v
  }

  /** The native command: the manager, its subcommand, the package and then the extra arguments in order. */
  predicate IsInstallCommand(cmd: Command, package: string, version: Option<string>, lang: Language,
                             extraArgs: seq<string>) {
    && cmd.program == Manager(lang)
    && |cmd.args| == |extraArgs| + 2
    && cmd.args[0] == Subcommand(lang)
    && cmd.args[1] == PackageSpec(package, version, lang)
    && cmd.args[2..] == extraArgs
  }

  /**
   * Builds the argument vector, runs the package manager and reports its
   * failure to start or its unsuccessful exit.
   */
  method InstallPackage(package: string, version: Option<string>, lang: Language, extraArgs: seq<string>,
                        run: Command -> ProcessStatus) returns (r: Outcome, cmd: Command)
    ensures IsInstallCommand(cmd, package, version, lang, extraArgs)
    ensures run(cmd).SpawnError? ==> r == Err(SpawnFailed(run(cmd).error))
    ensures run(cmd) == Exited(false) ==> r == Err(ToolFailed(Manager(lang) + " " + Subcommand(lang) + " failed"))
    ensures run(cmd) == Exited(true) ==> r == Ok
  {
    var args := [Subcommand(lang), PackageSpec(package, version, lang)];
    for i := 0 to |extraArgs|
      invariant |args| == i + 2
      invariant args[0] == Subcommand(lang) && args[1] == PackageSpec(package, version, lang)
      invariant args[2..] == extraArgs[..i]
    {
      args := args + [extraArgs[i]];
    }
    assert extraArgs[..|extraArgs|] == extraArgs;
    cmd := Command(Manager(lang), args);
    match run(cmd)
    case SpawnError(e) => r := Err(SpawnFailed(e));
    case Exited(success) =>
      r := if success then Ok else Err(ToolFailed(Manager(lang) + " " + Subcommand(lang) + " failed"));
  }

  /**
   * `install`: resolve the ecosystem, load the read-only registry, look the
   * package up, pass the gate, and only then run the package manager.
   * `ran` is the command that was run, if any.
   */
  method HandleInstall(package: string, version: Option<string>, lang: Option<Language>, detected: Option<Language>,
                       yes: bool, extraArgs: seq<string>, env: Env, answer: Result<string, string>,
                       run: Command -> ProcessStatus) returns (r: Outcome, ran: Option<Command>)
    ensures ResolveLanguage(lang, detected).Failure? ==> r == Err(NoLanguage) && ran == None
    ensures ResolveLanguage(lang, detected).Success? && LoadEmbedded(env.lib, env.embedded).Failure? ==>
              r == Err(Load(LoadEmbedded(env.lib, env.embedded).error)) && ran == None
    ensures ResolveLanguage(lang, detected).Success? && LoadEmbedded(env.lib, env.embedded).Success? ==>
      var l := ResolveLanguage(lang, detected).value;
      var found := Find(LoadEmbedded(env.lib, env.embedded).value.Get(l), package).Some?;
      var gate := InstallGate(found, yes, answer);
      && (ran.Some? <==> gate == Proceed)
      && (ran.Some? ==> IsInstallCommand(ran.value, package, version, l, extraArgs))
      && (ran.Some? ==> (r == Ok <==> run(ran.value) == Exited(true)))
      && (ran.Some? && run(ran.value).SpawnError? ==> r == Err(SpawnFailed(run(ran.value).error)))
      && (gate == Cancel ==> r == Ok)
      && (gate.PromptFailed? ==> r == Err(ReadFailed(gate.error)))
  {
    ran := None;
    match ResolveLanguage(lang, detected)
    case Failure(e) =>
      r := Err(e);
    case Success(l) =>
      match LoadEmbedded(env.lib, env.embedded)
      case Failure(e) =>
        r := Err(Load(e));
      case Success(c) =>
        var registry := new Registry(c);
        var found := registry.LookupPackage(package, l).Some?;
        match InstallGate(found, yes, answer)
        case Cancel =>
          r := Ok;
        case PromptFailed(e) =>
          r := Err(ReadFailed(e));
        case Proceed =>
          var cmd;
          r, cmd := InstallPackage(package, version, l, extraArgs, run);
          ran := Some(cmd);
  }

  // ---------------------------------------------------------------- trust

  /** A record as the caller endorses it: the score replaced when one is given, the endorser appended. */
  function Endorse(record: PackageRecord, score: Option<real>, endorser: string): (r: PackageRecord)
    ensures r.trustScore == if score.Some? then score.value else record.trustScore
    ensures r.endorsedBy == record.endorsedBy + [endorser] && r.endorsedBy[|r.endorsedBy| - 1] == endorser
    ensures r.(trustScore := record.trustScore, endorsedBy := record.endorsedBy) == record
  {
    record.(trustScore := score.GetOr(record.trustScore), endorsedBy := record.endorsedBy + [endorser])
  }

  /** The record `trust` adds: fetched from PyPI with `--fetch` for python, written by hand otherwise. */
  function TrustEntry(package: string, version: Option<string>, lang: Language, fetch: bool, score: Option<real>,
                      env: Env): (r: Fetched)
    ensures fetch && lang == Python ==>
      var f := FetchFromPyPi(package, env.pypi, env.today);
      && (r.Fetched? <==> f.Fetched?)
      && (!f.Fetched? ==> r == f)
      && (f.Fetched? ==> r.record == Endorse(f.record, score, "user"))
    ensures !(fetch && lang == Python) ==>
      r == Fetched(PackageRecord(package, version.GetOr("1.0.0"), "sha256:manual", score.GetOr(5.0), ["user"],
                                 env.today, "https://manual.entry"))
  {
    if fetch && lang == Python then
      match FetchFromPyPi(package, env.pypi, env.today)
      case Fetched(record) => Fetched(Endorse(record, score, "user"))
      case other => other
    else
      Fetched(PackageRecord(
        name := package,
        version := version.GetOr("1.0.0"),
        hash := "sha256:manual",
        trustScore := score.GetOr(5.0),
        endorsedBy := ["user"],
        lastReviewed := env.today,
        source := "https://manual.entry"))
  }

  /**
   * Whichever path builds it, a trusted record carries the package's name,
   * `user` as its only endorser, today's date, a `sha256:` hash and the
   * given score; without `--fetch`, or outside python, it is a manual
   * record: version defaulting to 1.0.0, score to 5.0, a URI source.
   */
  lemma TrustEntryShape(package: string, version: Option<string>, lang: Language, fetch: bool, score: Option<real>,
                        env: Env)
    ensures var e := TrustEntry(package, version, lang, fetch, score, env);
      e.Fetched? ==>
        && e.record.name == package
        && e.record.endorsedBy == ["user"]
        && e.record.lastReviewed == env.today
        && HashWellFormed(e.record.hash)
        && (score.Some? ==> e.record.trustScore == score.value)
    ensures !(fetch && lang == Python) ==>
      var e := TrustEntry(package, version, lang, fetch, score, env);
      && e.Fetched?
      && e.record.version == version.GetOr("1.0.0")
      && e.record.trustScore == score.GetOr(5.0)
      && e.record.hash == "sha256:manual"
      && HasUriScheme(e.record.source)
  {
    var e := TrustEntry(package, version, lang, fetch, score, env);
    FetchedRecordsUntrusted(package, env.pypi, (u: string) => Failure(""), (u: string) => Failure(""), env.today);
    if !(fetch && lang == Python) {
      assert StartsWith(e.record.hash, HashPrefix);
      assert StartsWith(e.record.source, "https://");
      HttpsHasScheme(e.record.source);
    }
  }

  /** What the store's write-back reports. */
  function Save(env: Env): Outcome {
    match env.saveError
    case Some(e) => Err(SaveFailed(e))
    case None => Ok
  }

  /**
   * `trust`: build the record, insert-or-replace it in the chosen ecosystem
   * of the writable registry, and write all three collections back. `saved`
   * is what was written, if anything.
   */
  method HandleTrust(package: string, version: Option<string>, lang: Option<Language>, detected: Option<Language>,
                     fetch: bool, score: Option<real>, env: Env) returns (r: Outcome, saved: Option<Collections>)
    ensures ResolveLanguage(lang, detected).Failure? ==> r == Err(NoLanguage) && saved == None
    ensures ResolveLanguage(lang, detected).Success? && LoadMutable(env.lib, env.embedded, env.fs).Failure? ==>
              r == Err(Load(LoadMutable(env.lib, env.embedded, env.fs).error)) && saved == None
    ensures ResolveLanguage(lang, detected).Success? && LoadMutable(env.lib, env.embedded, env.fs).Success? ==>
      var l := ResolveLanguage(lang, detected).value;
      var c := LoadMutable(env.lib, env.embedded, env.fs).value;
      var e := TrustEntry(package, version, l, fetch, score, env);
      && (e.FetchError? ==> r == Err(FetchFailed(e.error)) && saved == None)
      && (e.Panicked? ==> r == Panic(e.message) && saved == None)
      && (e.Fetched? ==>
            && saved == Some(c.With(l, Insert(c.Get(l), e.record)))
            && r == Save(env)
            && (NamesUnique(c.Get(l)) ==>
                  NamesUnique(saved.value.Get(l)) && Find(saved.value.Get(l), package) == Some(e.record)))
  {
    saved := None;
    match ResolveLanguage(lang, detected)
    case Failure(e) =>
      r := Err(e);
    case Success(l) =>
      match LoadMutable(env.lib, env.embedded, env.fs)
      case Failure(e) =>
        r := Err(Load(e));
      case Success(c) =>
        var registry := new Registry(c);
        var entry := TrustEntry(package, version, l, fetch, score, env);
        match entry
        case FetchError(e) =>
          r := Err(FetchFailed(e));
        case Panicked(m) =>
          r := Panic(m);
        case Fetched(record) =>
          TrustEntryShape(package, version, l, fetch, score, env);
          registry.AddPackage(record, l);
          saved := Some(registry.Snapshot());
          r := Save(env);
  }

  /**
   * `untrust`: remove the first record of that name from the chosen
   * ecosystem; the registry is written back only when a record was removed.
   */
  method HandleUntrust(package: string, lang: Option<Language>, detected: Option<Language>, env: Env)
    returns (r: Outcome, removed: bool, saved: Option<Collections>)
    ensures saved.Some? <==> removed
    ensures ResolveLanguage(lang, detected).Failure? ==> r == Err(NoLanguage) && !removed
    ensures ResolveLanguage(lang, detected).Success? && LoadMutable(env.lib, env.embedded, env.fs).Failure? ==>
              r == Err(Load(LoadMutable(env.lib, env.embedded, env.fs).error)) && !removed
    ensures ResolveLanguage(lang, detected).Success? && LoadMutable(env.lib, env.embedded, env.fs).Success? ==>
      var l := ResolveLanguage(lang, detected).value;
      var c := LoadMutable(env.lib, env.embedded, env.fs).value;
      && (removed <==> package in Names(c.Get(l)))
      && (removed ==> saved == Some(c.With(l, RemoveFirst(c.Get(l), package))) && r == Save(env))
      && (!removed ==> r == Ok)
  {
    saved := None;
    removed := false;
    match ResolveLanguage(lang, detected)
    case Failure(e) =>
      r := Err(e);
    case Success(l) =>
      match LoadMutable(env.lib, env.embedded, env.fs)
      case Failure(e) =>
        r := Err(Load(e));
      case Success(c) =>
        var registry := new Registry(c);
        removed := registry.RemovePackage(package, l);
        if removed {
          saved := Some(registry.Snapshot());
          r := Save(env);
        } else {
          r := Ok;
        }
  }

  // ---------------------------------------------------------------- bulk trust

  /**
   * The record bulk trust adds for one name: fetched from PyPI for python,
   * a placeholder record for rust and go.
   */
  function BulkEntry(name: string, lang: Language, score: Option<real>, env: Env): (r: Fetched)
    ensures lang == Python ==>
      var f := FetchFromPyPi(name, env.pypi, env.today);
      && (r.Fetched? <==> f.Fetched?)
      && (!f.Fetched? ==> r == f)
      && (f.Fetched? ==> r.record == Endorse(f.record, score, "bulk-import"))
    ensures lang != Python ==>
      r == Fetched(PackageRecord(name, "1.0.0", "manual", score.GetOr(5.0), ["bulk-import"], env.today, "manual"))
  {
    if lang == Python then
      match FetchFromPyPi(name, env.pypi, env.today)
      case Fetched(record) => Fetched(Endorse(record, score, "bulk-import"))
      case other => other
    else
      Fetched(PackageRecord(
        name := name,
        version := "1.0.0",
        hash := "manual",
        trustScore := score.GetOr(5.0),
        endorsedBy := ["bulk-import"],
        lastReviewed := env.today,
        source := "manual"))
  }

  /**
   * A bulk record carries the name, `bulk-import` as its only endorser,
   * today's date and the given score. Its hash is in `sha256:` form exactly
   * when it was fetched (python); the rust and go placeholders have neither
   * a `sha256:` hash nor a URI source.
   */
  lemma BulkEntryShape(name: string, lang: Language, score: Option<real>, env: Env)
    ensures var e := BulkEntry(name, lang, score, env);
      e.Fetched? ==>
        && e.record.name == name
        && e.record.endorsedBy == ["bulk-import"]
        && e.record.lastReviewed == env.today
        && (score.Some? ==> e.record.trustScore == score.value)
        && (HashWellFormed(e.record.hash) <==> lang == Python)
    ensures lang != Python ==>
      var e := BulkEntry(name, lang, score, env);
      e.Fetched? && e.record.version == "1.0.0" && !HasUriScheme(e.record.source)
  {
    FetchedRecordsUntrusted(name, env.pypi, (u: string) => Failure(""), (u: string) => Failure(""), env.today);
    if lang != Python {
      assert !StartsWith("manual", HashPrefix);
      ManualHasNoScheme();
    }
  }

  /**
   * What bulk trust makes of each listed name, in order: a record, a fetch
   * error or a panic. The fetch depends on the name and the network only,
   * so each outcome is fixed before the loop inserts anything.
   */
  function BulkOutcomes(names: seq<string>, lang: Language, score: Option<real>, env: Env): (r: seq<Fetched>)
    ensures |r| == |names|
    ensures forall k :: 0 <= k < |names| ==> r[k] == BulkEntry(names[k], lang, score, env)
  {
    seq(|names|, k requires 0 <= k < |names| => BulkEntry(names[k], lang, score, env))
  }

  /** Every record among the outcomes is a record of its own name. */
  lemma BulkOutcomesNamed(names: seq<string>, lang: Language, score: Option<real>, env: Env)
    ensures var outcomes := BulkOutcomes(names, lang, score, env);
      forall k :: 0 <= k < |names| && outcomes[k].Fetched? ==> outcomes[k].record.name == names[k]
  {
    forall k | 0 <= k < |names| {
      BulkEntryShape(names[k], lang, score, env);
    }
  }

  /** The records among the first `n` outcomes, in order; failures are skipped. */
  function BulkRecords(outcomes: seq<Fetched>, n: nat): seq<PackageRecord>
    requires n <= |outcomes|
  {
    if n == 0 then []
    else BulkRecords(outcomes, n - 1) + (if outcomes[n - 1].Fetched? then [outcomes[n - 1].record] else [])
  }

  /** How many of the first `n` outcomes are fetch errors. */
  function BulkErrors(outcomes: seq<Fetched>, n: nat): nat
    requires n <= |outcomes|
  {
    if n == 0 then 0
    else BulkErrors(outcomes, n - 1) + (if outcomes[n - 1].FetchError? then 1 else 0)
  }

  /** Some name makes the fetch panic, which ends the process. */
  predicate SomePanics(outcomes: seq<Fetched>) {
    exists k :: 0 <= k < |outcomes| && outcomes[k].Panicked?
  }

  /** None of the first `n` outcomes is a panic. */
  predicate NoPanicBefore(outcomes: seq<Fetched>, n: nat)
    requires n <= |outcomes|
  {
    n == 0 || (NoPanicBefore(outcomes, n - 1) && !outcomes[n - 1].Panicked?)
  }

  lemma {:induction false} NoPanicBeforeAll(outcomes: seq<Fetched>, n: nat)
    requires n <= |outcomes|
    ensures NoPanicBefore(outcomes, n) <==> forall k :: 0 <= k < n ==> !outcomes[k].Panicked?
  {
    if n > 0 {
      NoPanicBeforeAll(outcomes, n - 1);
    }
  }

  /**
   * When none of the first `n` outcomes is a panic, each is counted once, as
   * a record or as a failure; and when each record is named after its
   * name, the records' names are among the first `n` names.
   */
  lemma {:induction false} BulkCounts(names: seq<string>, outcomes: seq<Fetched>, n: nat)
    requires n <= |outcomes| == |names|
    requires forall k :: 0 <= k < n ==> !outcomes[k].Panicked?
    requires forall k :: 0 <= k < |names| && outcomes[k].Fetched? ==> outcomes[k].record.name == names[k]
    ensures |BulkRecords(outcomes, n)| + BulkErrors(outcomes, n) == n
    ensures Names(BulkRecords(outcomes, n)) <= (set k | 0 <= k < n :: names[k])
  {
    if n > 0 {
      BulkCounts(names, outcomes, n - 1);
      var e := outcomes[n - 1];
      var head := BulkRecords(outcomes, n - 1);
      var tail := if e.Fetched? then [e.record] else [];
      NamesConcat(head, tail);
      if e.Fetched? { NamesSingleton(e.record); }
    }
  }

  /** The chosen collection after the first `n` outcomes: one insert-or-replace per record. */
  function BulkCollection(s: seq<PackageRecord>, outcomes: seq<Fetched>, n: nat): seq<PackageRecord>
    requires n <= |outcomes|
  {
    if n == 0 then s
    else
      var prev := BulkCollection(s, outcomes, n - 1);
      if outcomes[n - 1].Fetched? then Insert(prev, outcomes[n - 1].record) else prev
  }

  /** The loop inserts the records in order. */
  lemma {:induction false} BulkCollectionInserts(s: seq<PackageRecord>, outcomes: seq<Fetched>, n: nat)
    requires n <= |outcomes|
    ensures BulkCollection(s, outcomes, n) == InsertAll(s, BulkRecords(outcomes, n))
  {
    if n > 0 {
      BulkCollectionInserts(s, outcomes, n - 1);
      var done := BulkRecords(outcomes, n - 1);
      var prev := BulkCollection(s, outcomes, n - 1);
      if outcomes[n - 1].Fetched? {
        var r := outcomes[n - 1].record;
        assert BulkRecords(outcomes, n) == done + [r];
        assert BulkCollection(s, outcomes, n) == Insert(prev, r);
        InsertAllSnoc(s, done, r);
        assert InsertAll(s, done + [r]) == Insert(prev, r);
        assert InsertAll(s, BulkRecords(outcomes, n)) == InsertAll(s, done + [r]);
      } else {
        assert BulkRecords(outcomes, n) == done;
        assert BulkCollection(s, outcomes, n) == prev;
        assert InsertAll(s, BulkRecords(outcomes, n)) == InsertAll(s, done);
      }
    }
  }

  /**
   * The per-name loop of bulk trust: every outcome in order, each record
   * inserted-or-replaced in `lang`'s collection, failures counted and
   * skipped. A panic stops the loop at that name and is reported in `panic`.
   */
  method BulkInsert(registry: Registry, outcomes: seq<Fetched>, lang: Language)
    returns (panic: Option<string>, successCount: nat, errorCount: nat)
    modifies registry
    ensures panic.Some? <==> SomePanics(outcomes)
    ensures panic.None? ==>
      && registry.Snapshot() ==
           old(registry.Snapshot()).With(lang, InsertAll(old(registry.Collection(lang)), BulkRecords(outcomes, |outcomes|)))
      && successCount == |BulkRecords(outcomes, |outcomes|)|
      && errorCount == BulkErrors(outcomes, |outcomes|)
  {
    ghost var c := registry.Snapshot();
    panic, successCount, errorCount := None, 0, 0;
    for i := 0 to |outcomes|
      invariant registry.Snapshot() == c.With(lang, BulkCollection(c.Get(lang), outcomes, i))
      invariant successCount == |BulkRecords(outcomes, i)|
      invariant errorCount == BulkErrors(outcomes, i)
      invariant NoPanicBefore(outcomes, i)
    {
      match outcomes[i]
      case Panicked(m) =>
        panic := Some(m);
        return;
      case FetchError(_) =>
        errorCount := errorCount + 1;
      case Fetched(record) =>
        ghost var before := BulkCollection(c.Get(lang), outcomes, i);
        registry.AddPackage(record, lang);
        c.WithTwice(lang, before, Insert(before, record));
        successCount := successCount + 1;
    }
    NoPanicBeforeAll(outcomes, |outcomes|);
    BulkCollectionInserts(c.Get(lang), outcomes, |outcomes|);
  }

  /**
   * `bulk-trust`: every listed name is processed in order even when some
   * fail; each record built is inserted-or-replaced in the chosen ecosystem,
   * and the registry is written back once at the end. A file without names
   * ends early without loading or writing anything. A panic while fetching
   * ends the process with nothing written.
   */
  method HandleBulkTrust(lines: Result<seq<string>, string>, lang: Language, score: Option<real>, env: Env)
    returns (r: Outcome, successCount: nat, errorCount: nat, saved: Option<Collections>)
    ensures lines.Failure? ==> r == Err(ReadFailed(lines.error)) && saved == None
    ensures lines.Success? && ListedNames(lines.value) == [] ==> r == Ok && saved == None
    ensures lines.Success? && ListedNames(lines.value) != [] && LoadMutable(env.lib, env.embedded, env.fs).Failure? ==>
              r == Err(Load(LoadMutable(env.lib, env.embedded, env.fs).error)) && saved == None
    ensures lines.Success? && ListedNames(lines.value) != [] && LoadMutable(env.lib, env.embedded, env.fs).Success? ==>
      var names := ListedNames(lines.value);
      var c := LoadMutable(env.lib, env.embedded, env.fs).value;
      var outcomes := BulkOutcomes(names, lang, score, env);
      var added := BulkRecords(outcomes, |outcomes|);
      && (SomePanics(outcomes) ==> r.Panic? && saved == None)
      && (!SomePanics(outcomes) ==>
            && successCount == |added|
            && successCount + errorCount == |names|
            && saved == Some(c.With(lang, InsertAll(c.Get(lang), added)))
            && Names(saved.value.Get(lang)) == Names(c.Get(lang)) + Names(added)
            && Names(added) <= (set k | 0 <= k < |names| :: names[k])
            && r == Save(env))
  {
    successCount, errorCount, saved := 0, 0, None;
    if lines.Failure? {
      r := Err(ReadFailed(lines.error));
      return;
    }
    var names := ListedNames(lines.value);
    if names == [] {
      r := Ok;
      return;
    }
    match LoadMutable(env.lib, env.embedded, env.fs)
    case Failure(e) =>
      r := Err(Load(e));
    case Success(c) =>
      var registry := new Registry(c);
      var outcomes := BulkOutcomes(names, lang, score, env);
      var panic;
      panic, successCount, errorCount := BulkInsert(registry, outcomes, lang);
      if panic.Some? {
        r := Panic(panic.value);
        return;
      }
      BulkOutcomesNamed(names, lang, score, env);
      BulkCounts(names, outcomes, |outcomes|);
      InsertAllNames(c.Get(lang), BulkRecords(outcomes, |outcomes|));
      saved := Some(registry.Snapshot());
      r := Save(env);
  }
}

=== FILE: text.dfy ===
/**
 * The string helpers the workflows rely on: whitespace trimming, prefix tests
 * and lower-casing, restricted to ASCII.
 */
module Text {

  /** ASCII whitespace: space, tab, line feed, vertical tab, form feed, carriage return. */
  predicate IsWhitespace(c: char) {
    c == ' ' || ('\t' <= c <= '\r')
  }

  /** `s` with its leading whitespace removed. */
  function TrimStart(s: string): (r: string)
    ensures |r| <= |s| && r == s[|s| - |r|..]
    ensures forall k :: 0 <= k < |s| - |r| ==> IsWhitespace(s[k])
    ensures r == [] || !IsWhitespace(r[0])
  {
    if |s| > 0 && IsWhitespace(s[0]) then TrimStart(s[1..]) else s
  }

  /** `s` with its trailing whitespace removed. */
  function TrimEnd(s: string): (r: string)
    ensures |r| <= |s| && r == s[..|r|]
    ensures forall k :: |r| <= k < |s| ==> IsWhitespace(s[k])
    ensures r == [] || !IsWhitespace(r[|r| - 1])
  {
    if |s| > 0 && IsWhitespace(s[|s| - 1]) then TrimEnd(s[..|s| - 1]) else s
  }

  /** Neither end of `t` is whitespace. */
  predicate IsTrimmed(t: string) {
    t == [] || (!IsWhitespace(t[0]) && !IsWhitespace(t[|t| - 1]))
  }

  /** Both ends trimmed. */
  function Trim(s: string): (r: string)
    ensures |r| <= |s|
    ensures IsTrimmed(r)
  {
    TrimEnd(TrimStart(s))
  }

  /** What trimming removes is whitespace at the two ends; what remains is a contiguous slice. */
  lemma TrimSlice(s: string)
    ensures exists i, j :: 0 <= i <= j <= |s| && Trim(s) == s[i..j]
                           && (forall k :: 0 <= k < i ==> IsWhitespace(s[k]))
                           && (forall k :: j <= k < |s| ==> IsWhitespace(s[k]))
  {
    var t := TrimStart(s);
    var r := TrimEnd(t);
    var i := |s| - |t|;
    assert r == s[i..i + |r|];
    assert forall k :: i + |r| <= k < |s| ==> s[k] == t[k - i];
  }

  /** A string with no whitespace at either end is its own trim. */
  lemma TrimmedIsFixed(t: string)
    requires IsTrimmed(t)
    ensures Trim(t) == t
  {
    assert TrimStart(t) == t;
    assert TrimEnd(t) == t;
  }

  /** Trimming is idempotent. */
  lemma TrimIdempotent(s: string)
    ensures Trim(Trim(s)) == Trim(s)
  {
    TrimmedIsFixed(Trim(s));
  }

  predicate StartsWith(s: string, prefix: string) {
    |prefix| <= |s| && s[..|prefix|] == prefix
  }

  /** ASCII lower-casing of one character. */
  function LowerChar(c: char): char {
    if 'A' <= c <= 'Z' then (c as int + 32) as char else c
  }

  /** Character-wise lower-casing. */
  function ToLower(s: string): (r: string)
    ensures |r| == |s|
    ensures forall k :: 0 <= k < |s| ==> r[k] == LowerChar(s[k])
  {
    seq(|s|, k requires 0 <= k < |s| => LowerChar(s[k]))
  }

  /** `s` and `t` agree letter for letter when case is ignored. */
  predicate EqualsIgnoringCase(s: string, t: string) {
    |s| == |t| && forall k :: 0 <= k < |s| ==> LowerChar(s[k]) == LowerChar(t[k])
  }

  predicate IsLowerCase(t: string) {
    forall k :: 0 <= k < |t| ==> LowerChar(t[k]) == t[k]
  }

  /** Lower-casing `s` gives a lower-case `t` exactly when the two agree ignoring case. */
  lemma ToLowerMatches(s: string, t: string)
    requires IsLowerCase(t)
    ensures ToLower(s) == t <==> EqualsIgnoringCase(s, t)
  {
    if EqualsIgnoringCase(s, t) {
      assert forall k :: 0 <= k < |s| ==> ToLower(s)[k] == t[k];
    }
  }
}

/**
 * The name list of a bulk file: each line trimmed, blank lines and lines
 * beginning with `#` dropped, in file order.
 */
module NameList {
  import opened Text

  /** A trimmed line that names a package. */
  predicate IsName(t: string) {
    t != [] && !StartsWith(t, "#")
  }

  function ListedNames(lines: seq<string>): (names: seq<string>)
    ensures |names| <= |lines|
    ensures forall n :: n in names ==> IsName(n) && IsTrimmed(n)
  {
    if lines == [] then []
    else
      var t := Trim(lines[0]);
      var rest := ListedNames(lines[1..]);
      if IsName(t) then
        assert IsTrimmed(t);
        assert forall n :: n in [t] + rest ==> n == t || n in rest;
        [t] + rest
      else rest
  }

  /** The names of a non-empty list of lines: the first line's, if it names a package, then the rest's. */
  lemma ListedNamesCons(lines: seq<string>)
    requires lines != []
    ensures ListedNames(lines) == (if IsName(Trim(lines[0])) then [Trim(lines[0])] else []) + ListedNames(lines[1..])
  {
  }

  /** A proof helper: associativity of concatenation, proved apart from the name-list facts. */
  lemma AppendAssociative(x: seq<string>, y: seq<string>, z: seq<string>)
    ensures x + (y + z) == (x + y) + z
  {
  }

  /** The filter works line by line: names of consecutive chunks are concatenated in order. */
  lemma {:induction false} ListedNamesAppend(a: seq<string>, b: seq<string>)
    ensures ListedNames(a + b) == ListedNames(a) + ListedNames(b)
  {
    if a != [] {
      var head := if IsName(Trim(a[0])) then [Trim(a[0])] else [];
      assert (a + b)[1..] == a[1..] + b;
      assert (a + b)[0] == a[0];
      ListedNamesCons(a + b);
      ListedNamesCons(a);
      ListedNamesAppend(a[1..], b);
      AppendAssociative(head, ListedNames(a[1..]), ListedNames(b));
    } else {
      assert a + b == b;
    }
  }

  /** A name is listed exactly when some line trims to it. */
  lemma {:induction false} ListedNamesMembership(lines: seq<string>, n: string)
    ensures n in ListedNames(lines) <==> IsName(n) && exists k :: 0 <= k < |lines| && Trim(lines[k]) == n
  {
    if lines != [] {
      ListedNamesCons(lines);
      ListedNamesMembership(lines[1..], n);
      if IsName(n) && (exists k :: 0 <= k < |lines| && Trim(lines[k]) == n) {
        var k :| 0 <= k < |lines| && Trim(lines[k]) == n;
        if k > 0 {
          assert Trim(lines[1..][k - 1]) == n;
        }
      }
    }
  }

  /** Filtering a name list again changes nothing. */
  lemma {:induction false} ListedNamesIdempotent(lines: seq<string>)
    ensures ListedNames(ListedNames(lines)) == ListedNames(lines)
  {
    if lines != [] {
      var t := Trim(lines[0]);
      var head := if IsName(t) then [t] else [];
      assert ListedNames(lines) == head + ListedNames(lines[1..]);
      ListedNamesIdempotent(lines[1..]);
      ListedNamesAppend(head, ListedNames(lines[1..]));
      if IsName(t) {
        TrimmedIsFixed(t);
        assert ListedNames([t]) == [t] by {
          assert [t][1..] == [];
        }
      }
    }
  }
}

=== FILE: wrappers.dfy ===
/** Option and Result: the absent value of a lookup and the error path of an operation. */
module Wrappers {

  datatype Option<+T> = None | Some(value: T) {
    /** The value, or `default` when absent (Rust's `unwrap_or`). */
    function GetOr(default: T): T {
      match this
      case Some(v) => v
      case None => default
    }
  }

  datatype Result<+T, +E> = Success(value: T) | Failure(error: E)
}
